=== FILE: README.md ===
# Entitlement state machine of a subscription front-end, in Dafny

This project models the part of the TradeSignal web front-end that decides
what a user may do and how payments change that: the per-user account record
(`tier`, `creditsRemaining`, `subscriptionStatus`, payment-provider ids and
payment metadata), the credit gate (`/api/usage/check`, `/api/usage/consume`),
the two payment webhooks (NOWPayments for crypto, Stripe for cards), the crypto
checkout's order reference and currency list, the PRO-only daily picks, the
sign-in callbacks, the analysis route's validation and defaulting, and the
track-record statistics.

Every request or webhook handler is a pure function from the store and the
request to the reply and, for the handlers that write, the new store. The
store is the `users` collection in its natural order (`Accounts.Store`, a
sequence of `_id` + record); every field of a record is an `Option`, because
the handlers read them with JavaScript's `x || default`. A filter that can
match several documents (by `email`, by `stripeCustomerId`) acts on the first
match, as `findOne`/`updateOne` do. Read-only handlers (`Usage.Check`,
`DailyPicks.Get`, `Analyze.Post`, `CryptoCheckout.CurrenciesOrStatus`) return
no store at all, so "the handler never writes" holds by their type.

The model follows the code, not an idealised design. In particular there is
no monthly credit reset (nothing reads `analysesResetDate`), no record of
processed event ids, no ordering or rank check on webhook statuses (each
status overwrites fields unconditionally), and the credit decrement is a read
followed by a write. A design in which the decrement is an atomic conditional
update and out-of-order webhook deliveries cannot regress the tier is not what
the code does; the lemmas state what the code does instead (for example,
`NowPayments.TierDecidedByLast`: the last finished/refunded notification wins,
whatever order it arrived in).

Modules (one file each): `Wrappers`, `Js` (truthiness, ASCII case),
`Decimal`, `Http`, `Accounts`, `Usage`, `OrderId`, `NowPayments`,
`StripeWebhook`, `CryptoCheckout`, `Seqs` (order-preserving filtering), `Signals`, `DailyPicks`, `Auth`, `Analyze`,
`TrackRecord`, `Entitlement` (lemmas joining webhooks to the gates).

## Model

| member | source | states |
|---|---|---|
| Accounts.FirstWhere | src/app/api/usage/consume/route.ts:21-23 | `findOne` returns the first document the filter accepts; none before it matches, and `None` means none matches |
| Accounts.UpdateAtFrame | src/app/api/webhooks/stripe/route.ts:72-80 | an `updateOne` changes at most the selected document and never moves an `_id` |
| Accounts.ByIdStable | src/app/api/webhooks/nowpayments/route.ts:59-62 | after any update that keeps `_id`s, a lookup by `_id` finds the same document |
| Usage.Check | src/app/api/usage/check/route.ts:7-36 | 401 without a session, 404 for a missing user; a stored non-empty tier is reported as stored and a missing or empty one as "FREE"; a stored non-zero balance is reported as stored and a missing or zero one as 0; `canAnalyze` holds iff the record is PRO or its balance is positive, which is also iff the reported tier is "PRO" or the reported balance is positive |
| Usage.Consume | src/app/api/usage/consume/route.ts:7-64 | 401/404 with no write; PRO gets success with -1 and no write; a non-PRO user with balance (missing = 0) at most 0 gets 403 with no write; otherwise the reply reports old balance minus 1 as FREE, and only that user's `creditsRemaining` (down by exactly 1) and `updatedAt` change |
| Usage.CheckAgreesWithConsume | src/app/api/usage/check/route.ts:11-35 | `check` reports `canAnalyze` exactly when `consume` would succeed on the same store, and both refuse unauthenticated/missing users with the same status and message |
| Usage.ConsumeTimesCountsDown | src/app/api/usage/consume/route.ts:42-64 | after k of n credits are consumed in sequence, the k replies report n-1, n-2, … and the record holds n-k |
| Usage.CreditsRunOut | src/app/api/usage/consume/route.ts:42-64 | a FREE user with n > 0 credits gets n successes, is left at 0, and the next request is refused with 403 and no write |
| Decimal.FromNat | src/app/api/crypto-checkout/route.ts:30 | the `${Date.now()}` text is a non-empty string of decimal digits |
| Decimal.ToNatFromNat | src/app/api/crypto-checkout/route.ts:30 | reading the decimal text of n back gives n |
| Decimal.FromNatInjective | src/app/api/daily-picks/route.ts:69 | distinct numbers have distinct decimal texts |
| OrderId.HexRunEnd | src/app/api/webhooks/nowpayments/route.ts:43 | the greedy `[a-f0-9]+` run ends at the first non-hex character |
| OrderId.MatchAtCorrect | src/app/api/webhooks/nowpayments/route.ts:43 | trying `/sub_([a-f0-9]+)_/` at one position yields group u iff `sub_` + u + `_` occurs there with u non-empty hex |
| OrderId.SearchFromCorrect | src/app/api/webhooks/nowpayments/route.ts:43-49 | the search from a position finds nothing iff no later position matches, else the group of the leftmost match |
| OrderId.ParseCorrect | src/app/api/webhooks/nowpayments/route.ts:43-49 | `order_id.match(...)[1]` is the group of the leftmost match, and absent iff the pattern occurs nowhere |
| OrderId.ParseEncode | src/app/api/crypto-checkout/route.ts:30 | round trip: for a non-empty lower-case hex user id and any timestamp, the webhook's parse of `sub_{id}_{ts}` recovers exactly the id |
| NowPayments.Handle | src/app/api/webhooks/nowpayments/route.ts:7-28 | a non-JSON body gives 500; with secret and header both present, a signature differing from the HMAC recomputed over the whole body's JSON text (every field, read or not) gives 400 with no change; without either, the body is processed unverified |
| NowPayments.Apply | src/app/api/webhooks/nowpayments/route.ts:32-140 | a missing `order_id` gives 500 with no change; an unparsable one is acknowledged with no change; otherwise the reply is `{received: true}` and at most the record the order names changes |
| NowPayments.TransitionEffects | src/app/api/webhooks/nowpayments/route.ts:53-134 | only the named record changes; "finished" sets PRO, -1, "active", "crypto", the payment id, both amounts, both currencies, the payment date and `updatedAt`, and keeps every other field; "failed"/"expired" set only `lastPaymentStatus` and `updatedAt`; "refunded" sets FREE, 5, "refunded" and `updatedAt` and keeps every other field |
| NowPayments.InformationalStatusesChangeNothing | src/app/api/webhooks/nowpayments/route.ts:82-99 | "confirmed", "sending", "partially_paid" and any unknown or missing status are acknowledged and change nothing |
| NowPayments.ApplyIdempotent | src/app/api/webhooks/nowpayments/route.ts:53-134 | redelivering a notification later gives the same store as delivering it once at that later time |
| NowPayments.ApplyClockIndependent | src/app/api/webhooks/nowpayments/route.ts:59-132 | two deliveries of one notification at different times differ only in `updatedAt`/`lastPaymentDate` |
| NowPayments.TierDecidedByLast | src/app/api/webhooks/nowpayments/route.ts:59-132 | after any sequence of notifications, a user's tier is the one set by the last finished/refunded notification for that user, or the original tier if there is none |
| StripeWebhook.Handle | src/app/api/webhooks/stripe/route.ts:7-32 | a missing or empty `stripe-signature` header, or a failed `constructEvent`, gives 400 with no change; a verified event is always acknowledged |
| StripeWebhook.ApplyEvent | src/app/api/webhooks/stripe/route.ts:38-109 | every event touches at most one record and moves no `_id`; unhandled types, and a checkout naming no user, change nothing |
| StripeWebhook.CheckoutUpgrades | src/app/api/webhooks/stripe/route.ts:39-64 | the user is `metadata.userId`, falling back to `client_reference_id`; that record becomes PRO, -1, "active" with the customer and subscription ids and `updatedAt` set; its other fields and every other record are unchanged |
| StripeWebhook.SubscriptionUpdateMirrorsStatus | src/app/api/webhooks/stripe/route.ts:67-84 | the first record with that `stripeCustomerId` gets the subscription's status and a new `updatedAt`, and nothing else of it or of any other record changes; no match changes nothing |
| StripeWebhook.SubscriptionDeleteDowngrades | src/app/api/webhooks/stripe/route.ts:86-105 | the first record with that `stripeCustomerId` becomes FREE with 5 credits, "canceled" and a new `updatedAt`; its other fields (the subscription id included) and every other record are unchanged; no match changes nothing |
| StripeWebhook.ApplyEventIdempotent | src/app/api/webhooks/stripe/route.ts:38-109 | redelivering an event later gives the same store as delivering it once at that later time |
| CryptoCheckout.Checkout | src/app/api/crypto-checkout/route.ts:6-51 | 401 without a session (before the body is read); a body that cannot be read gives 500 with the thrown message or the fixed fallback; 400 without a cryptocurrency; else a 79 USD invoice whose order id is `sub_{id}_{ts}` and which the webhook parses back to the same user |
| CryptoCheckout.FilterPopular | src/app/api/crypto-checkout/route.ts:77-85 | the result is an order-preserving subsequence of the input in which every entry whose lower-case form is one of the 16 popular codes occurs exactly as often as in the input, and no other entry occurs |
| CryptoCheckout.CurrenciesOrStatus | src/app/api/crypto-checkout/route.ts:54-90 | a payment-status lookup needs a session (else 401); without a payment id no session is needed, the popular currencies are listed in order with their multiplicity, and `allCurrencies` is the unfiltered count |
| DailyPicks.Newest | src/app/api/daily-picks/route.ts:41-58 | the chosen document lies in [today, tomorrow) and no in-window document has a newer `createdAt`; none is chosen iff none is in the window |
| DailyPicks.PickIdInjective | src/app/api/daily-picks/route.ts:68-69 | two picks of one document have the same id only if they have the same index |
| DailyPicks.ToPicks | src/app/api/daily-picks/route.ts:67-79 | one pick per signal, in order, with id `{docId}-{index}` (pairwise distinct); symbol, recommendation and confidence copied; each text field is the signal's text when non-empty and its literal default otherwise; the timestamp is the document's `createdAt`, or now without one |
| DailyPicks.Get | src/app/api/daily-picks/route.ts:7-85 | 401/404 as usual; 403 iff the tier is not exactly "PRO" (missing included); a PRO user with no in-window document gets the empty answer, with a newest in-window document holding a `signals` array gets its signals mapped by `ToPicks` with its `date` and `createdAt`, and with one lacking the array gets 500 |
| Auth.Authorize | src/lib/auth.ts:33-64 | missing email or password: "Invalid credentials"; unknown user or no stored hash: "User not found"; wrong password: "Invalid password"; a stored hash that accepts the password always succeeds, and success happens only then, returning the user's id, email and name and its stored non-empty tier, or "FREE" for a missing or empty one |
| Auth.Jwt | src/lib/auth.ts:68-74 | with a user, the token takes its id and tier; without one the token is returned unchanged |
| Auth.Session | src/lib/auth.ts:75-81 | the session user takes the token's id and tier and keeps its other fields |
| Auth.SessionCarriesAuthorizedUser | src/lib/auth.ts:58-81 | after a credentials sign-in the session carries the authorized user's id and a non-empty tier |
| Auth.RefreshKeepsClaims | src/lib/auth.ts:68-81 | a later token refresh without a user keeps the id and tier set at sign-in |
| Auth.SignIn | src/lib/auth.ts:82-121 | always true; credentials or no email writes nothing; a new OAuth email is inserted with FREE and 0 analyses; an existing tier (PRO included) is kept; a missing or empty one becomes FREE with 0 analyses and a reset date of now, every other field of the record kept; afterwards the user has a non-empty tier |
| Auth.SignInIdempotent | src/lib/auth.ts:84-118 | a second sign-in after the first writes nothing |
| Auth.SignInKeepsIdsUnique | src/lib/auth.ts:93-105 | with a fresh `_id` for the upsert, `_id`s stay unique |
| Analyze.Post | src/app/api/analyze/route.ts:6-82 | unreadable form data: 500; no or empty `chart`: 400; a text `chart`: 500; a MIME type not starting "image/": 400; a thrown fetch or unparsable answer: 500; a non-OK backend status is returned with "Analysis failed"; success exactly otherwise, with the backend result defaulted field by field and every text field non-empty; no tier or credits are consulted |
| Analyze.FillFields | src/app/api/analyze/route.ts:53-74 | for every backend answer, each field is the backend value when truthy (non-empty text, non-zero confidence, `override` true) and its literal default ("NEUTRAL", 0, "N/A", false, "Unknown", the fixed reasoning text) when the part or field is missing or falsy; the timestamp is now |
| TrackRecord.BuildQuery | src/app/api/track-record/route.ts:13-27 | the filter always requires "completed"; the symbol filter is present iff the parameter is non-empty and is then upper-cased; likewise the trade-status filter |
| TrackRecord.Select | src/app/api/track-record/route.ts:29-41 | the selection is the matching documents in collection order, each exactly as often as it is stored, so its length is the `countDocuments` total |
| TrackRecord.Page | src/app/api/track-record/route.ts:30-36 | `.skip(skip).limit(limit)`: nothing past the end; otherwise the selection from `skip` on, whole when the limit is 0 or does not cut it, else its first `Magnitude(limit)` documents; documents remain past the page iff a limit cut it short |
| TrackRecord.PublishedOnly | src/app/api/track-record/route.ts:44-46 | exactly the documents with `published: true`, as an order-preserving subsequence of the collection |
| TrackRecord.PublishedOnlyCounts | src/app/api/track-record/route.ts:44-46 | each published document occurs in the selection exactly as often as it is stored, and no unpublished one occurs |
| TrackRecord.RecentPublished | src/app/api/track-record/route.ts:44-49 | a prefix of the published documents of length min(100, their number), so every published document is kept when there are at most 100 |
| TrackRecord.WinsIn | src/app/api/track-record/route.ts:60-68 | a day contributes no more wins than signals |
| TrackRecord.CountWins | src/app/api/track-record/route.ts:58-71 | wins over all days never exceed the number of signals |
| TrackRecord.CountOutcomes | src/app/api/track-record/route.ts:51-71 | every daily signal is counted once; wins are those with confidence at least 70, losses the rest; total = wins + losses |
| TrackRecord.WinRate | src/app/api/track-record/route.ts:73 | 0 when there are no signals (no division), and always between 0 and 100 |
| TrackRecord.Get | src/app/api/track-record/route.ts:4-119 | the page is the `skip`..`skip + limit` run of the documents matching the filter; `hasMore` iff skip + page size < total, iff a non-zero limit ends before the total; reported total falls back to the document count when no daily signal exists; average risk:reward is always "2.5" |
| Entitlement.FinishedPaymentUnlocks | src/app/api/webhooks/nowpayments/route.ts:54-80 | after a finished crypto payment, the next `consume` succeeds as PRO with no write, `check` allows analysis, and the daily-picks request succeeds unless today's newest document lacks a `signals` array |
| Entitlement.RefundLeavesFiveAnalyses | src/app/api/webhooks/nowpayments/route.ts:118-134 | after a refund, exactly five `consume` requests succeed and the sixth is refused |
| Entitlement.CheckoutUnlocks | src/app/api/webhooks/stripe/route.ts:39-64 | after a completed card checkout, the next `consume` succeeds as PRO with no write |
| Entitlement.CancellationDowngrades | src/app/api/webhooks/stripe/route.ts:86-105 | after a subscription deletion, the linked user is refused the daily picks and `check` reports FREE, 5, allowed |

## Left out

- Database I/O and concurrency: each handler runs alone against a value of the store; the race between two concurrent `consume` requests (read then write) is not modelled.
- Errors thrown by the database or by `new ObjectId(...)` (the generic 500 branches), including the 500 for a parsed order id that is not 24 hex characters; the parsed id is looked up as given.
- HMAC-SHA512, Stripe's `constructEvent` and bcrypt: foreign cryptography, passed in as functions (`NowPayments.Hmac`, `StripeWebhook.ConstructEvent`, `Auth.PasswordCheck`).
- The provider calls (invoice creation, payment-status fetch, currency list fetch) and the analysis backend `fetch`: the handlers return what they would request, or take the provider's answer as input; provider failures (500) are not modelled for the checkout routes.
- Timestamps (`new Date()`, `Date.now()`, `toISOString`): opaque `Time` values passed in; `Date.now()` is taken as a natural number.
- Sorting by the database: the track-record collections are given in the order their queries sort by; only the daily-picks choice of the newest document is modelled.
- The per-signal track-record mapping (src/app/api/track-record/route.ts:76-98): its float parts (entry, exit, stop loss, profit, risk:reward, `toFixed`, and the `status` of Win, Loss or Open, which follows the sign of the float profit) and with them its plain parts (`id`, `date`, `symbol`, `direction` copied from `recommendation`, `confidence || 50`, `timeframe || "1h"`) are not modelled; `trackRecord` is the page of selected documents themselves, and the win rate is an exact real without `toFixed(1)`.
- Signal and analysis `confidence` values: JSON numbers, modelled as exact reals rather than IEEE doubles; the `>= 70` win test and `confidence || 0` only compare against constants, so rounding plays no part.
- `parseInt` of non-numeric `limit`/`skip` text (NaN): the parameters are taken already parsed.
- `toLowerCase`/`toUpperCase` beyond ASCII letters.
- The `GET` health-check of the analyze route, the NextAuth providers' configuration and the MongoDB adapter's own user creation.
- The admin script that upgrades whichever user is listed first, the pages and components, the price calculator, and the provider client wrappers.
- Monthly credit resets, event-id deduplication and status ordering: the code implements none of them, so they are not behaviour here.

=== FILE: accounts.dfy ===
/** The `users` collection: one account record per user, the entitlement
    fields the handlers read and write, and the three ways a handler finds a
    record (by `_id`, by `email`, by `stripeCustomerId`). */
module Accounts {
  import opened Wrappers
  import opened Js

  /** The string form of a MongoDB ObjectId, taken as given. */
  type UserId = string

  /** A `Date`, as milliseconds; its value never influences a decision. */
  type Time = int

  const PRO := "PRO"
  const FREE := "FREE"

  /** Credits a downgraded (refunded or canceled) account is given back. */
  const FreeAllotment := 5

  /** The `creditsRemaining` value written for PRO accounts ("unlimited"). */
  const Unlimited := -1

  /** One user document. Every field may be absent, as in the schemaless store. */
  datatype Account = Account(
    email: Option<string>,
    name: Option<string>,
    passwordHash: Option<string>,
    tier: Option<string>,
    creditsRemaining: Option<int>,
    monthlyAnalyses: Option<int>,
    analysesResetDate: Option<Time>,
    createdAt: Option<Time>,
    updatedAt: Option<Time>,
    subscriptionStatus: Option<string>,
    subscriptionMethod: Option<string>,
    stripeCustomerId: Option<string>,
    stripeSubscriptionId: Option<string>,
    cryptoPaymentId: Option<string>,
    lastPaymentStatus: Option<string>,
    lastPaymentDate: Option<Time>,
    lastPaymentAmount: Option<real>,
    lastPaymentCurrency: Option<string>,
    lastPaymentCrypto: Option<string>,
    lastPaymentCryptoAmount: Option<real>)

  /** A document with no fields besides its `_id`. */
  const EmptyAccount := Account(None, None, None, None, None, None, None, None, None, None,
                                None, None, None, None, None, None, None, None, None, None)

  datatype User = User(id: UserId, account: Account)

  /** The collection in its natural order, which decides which document a
      filter matching several documents picks. */
  type Store = seq<User>

  /** `user.tier === "PRO"`: only the exact string counts. */
  predicate IsPro(a: Account) {
    a.tier == Some(PRO)
  }

  /** `user.tier || "FREE"`. */
  function EffectiveTier(a: Account): string {
    StrOr(a.tier, FREE)
  }

  /** `user.creditsRemaining || 0`. */
  function EffectiveCredits(a: Account): int {
    IntOr(a.creditsRemaining, 0)
  }

  /** The record with its two timestamp fields cleared, for comparisons that
      must not depend on the clock. */
  function Untimed(a: Account): Account {
    a.(updatedAt := None, lastPaymentDate := None)
  }

  /** Index of the first document at or after `from` that `matches` accepts. */
  function IndexFrom(s: Store, matches: User -> bool, from: nat): (r: Option<nat>)
    requires from <= |s|
    ensures r.Some? ==> from <= r.value < |s| && matches(s[r.value])
    ensures r.Some? ==> forall j :: from <= j < r.value ==> !matches(s[j])
    ensures r.None? ==> forall j :: from <= j < |s| ==> !matches(s[j])
    decreases |s| - from
  {
    if from == |s| then None
    else if matches(s[from]) then Some(from)
    else IndexFrom(s, matches, from + 1)
  }

  /** The document `findOne`/`updateOne` with filter `matches` acts on. */
  function FirstWhere(s: Store, matches: User -> bool): (r: Option<nat>)
    ensures r.Some? ==> r.value < |s| && matches(s[r.value])
    ensures r.Some? ==> forall j :: 0 <= j < r.value ==> !matches(s[j])
    ensures r.None? ==> forall j :: 0 <= j < |s| ==> !matches(s[j])
  {
    IndexFrom(s, matches, 0)
  }

  /** Filter `{ _id: new ObjectId(id) }`. */
  function ById(s: Store, id: UserId): Option<nat> {
    FirstWhere(s, (u: User) => u.id == id)
  }

  /** Filter `{ email: e }`. */
  function ByEmail(s: Store, e: string): Option<nat> {
    FirstWhere(s, (u: User) => u.account.email == Some(e))
  }

  /** Filter `{ stripeCustomerId: c }`; a null `c` matches a missing field too. */
  function ByCustomer(s: Store, c: Option<string>): Option<nat> {
    FirstWhere(s, (u: User) => u.account.stripeCustomerId == c)
  }

  /** Replaces the fields of document `i`, keeping its `_id`. */
  function SetAccount(s: Store, i: nat, a: Account): Store
    requires i < |s|
  {
    s[i := User(s[i].id, a)]
  }

  /** `updateOne` on the document a filter selected, if any; `f` is the `$set`. */
  function UpdateAt(s: Store, i: Option<nat>, f: Account -> Account): Store
    requires i.Some? ==> i.value < |s|
  {
    if i.Some? then SetAccount(s, i.value, f(s[i.value].account)) else s
  }

  /** Both stores hold the same `_id`s in the same order. */
  predicate SameIds(s: Store, t: Store) {
    |s| == |t| && forall j :: 0 <= j < |s| ==> s[j].id == t[j].id
  }

  /** Every document other than number `i` is untouched, and `i` keeps its `_id`. */
  predicate OnlyChanged(s: Store, t: Store, i: nat) {
    && SameIds(s, t)
    && forall j :: 0 <= j < |s| && j != i ==> t[j] == s[j]
  }

  /** No two distinct documents share an `_id`. */
  predicate UniqueIds(s: Store) {
    forall j, k :: 0 <= j < k < |s| ==> s[j].id != s[k].id
  }

  /** An update through `UpdateAt` touches at most the selected document. */
  lemma UpdateAtFrame(s: Store, i: Option<nat>, f: Account -> Account)
    requires i.Some? ==> i.value < |s|
    ensures SameIds(s, UpdateAt(s, i, f))
    ensures i.Some? ==> OnlyChanged(s, UpdateAt(s, i, f), i.value)
    ensures i.None? ==> UpdateAt(s, i, f) == s
  {
  }

  /** Updates never move `_id`s, so a lookup by `_id` finds the same position. */
  lemma ByIdStable(s: Store, t: Store, id: UserId)
    requires SameIds(s, t)
    ensures ById(s, id) == ById(t, id)
  {
  }

  /** A lookup by customer id is unaffected by a change to one document that
      keeps that document's `stripeCustomerId`. */
  lemma ByCustomerStable(s: Store, t: Store, c: Option<string>, i: nat)
    requires OnlyChanged(s, t, i) && i < |s|
    requires t[i].account.stripeCustomerId == s[i].account.stripeCustomerId
    ensures ByCustomer(s, c) == ByCustomer(t, c)
  {
  }

  /** A lookup by email is unaffected by a change to one document that keeps
      that document's `email`. */
  lemma ByEmailStable(s: Store, t: Store, e: string, i: nat)
    requires OnlyChanged(s, t, i) && i < |s|
    requires t[i].account.email == s[i].account.email
    ensures ByEmail(s, e) == ByEmail(t, e)
  {
  }
}

=== FILE: analyze.dfy ===
/** `POST /api/analyze`: validates the uploaded chart, forwards it to the
    analysis backend and fills defaults into the backend's answer. The route
    consults neither tier nor credits (gating is left as a to-do in the
    source), so the handler takes no store. */
module Analyze {
  import opened Wrappers
  import opened Js
  import opened Http
  import opened Accounts

  /** An uploaded file: its MIME type and file name. */
  datatype ChartFile = ChartFile(mimeType: string, name: string)

  /** The `chart` entry of the parsed form data: missing, a text value, or a
      file. Only a file has a `type` to test. */
  datatype ChartField =
    | NoChart
    | Text(text: string)
    | Upload(file: ChartFile)

  datatype Technical = Technical(
    bias: Option<string>, confidence: Option<real>,
    entry: Option<string>, stopLoss: Option<string>, takeProfit: Option<string>)

  datatype Smart = Smart(
    recommendation: Option<string>, override: Option<bool>, liquidationRisk: Option<string>,
    fundingRate: Option<string>, longShortRatio: Option<string>)

  /** The backend's JSON answer; every part may be missing. */
  datatype BackendResult = BackendResult(
    technical: Option<Technical>, smart: Option<Smart>,
    reasoning: Option<string>, symbol: Option<string>)

  /** What the `fetch` to the backend produced: a thrown error, or a response
      with a status and its JSON answer, `None` when the body is not JSON or
      is `null` (reading a field of it then throws). */
  datatype Backend =
    | FetchFailed
    | Responded(status: int, json: Option<BackendResult>)

  datatype Analysis = Analysis(
    bias: string, confidence: real, entry: string, stopLoss: string, takeProfit: string,
    recommendation: string, override: bool, liquidationRisk: string,
    fundingRate: string, longShortRatio: string,
    reasoning: string, symbol: string, timestamp: Time)

  /** `response.ok`. */
  predicate IsOkStatus(status: int) {
    200 <= status <= 299
  }

  /** The result object the route returns, every field defaulted. */
  function Fill(r: BackendResult, now: Time): Analysis {
    var t := r.technical;
    var m := r.smart;
    Analysis(
      StrOr(if t.Some? then t.value.bias else None, "NEUTRAL"),
      RealOr(if t.Some? then t.value.confidence else None, 0.0),
      StrOr(if t.Some? then t.value.entry else None, "N/A"),
      StrOr(if t.Some? then t.value.stopLoss else None, "N/A"),
      StrOr(if t.Some? then t.value.takeProfit else None, "N/A"),
      StrOr(if m.Some? then m.value.recommendation else None, "NEUTRAL"),
      if m.Some? && m.value.override.Some? then m.value.override.value else false,
      StrOr(if m.Some? then m.value.liquidationRisk else None, "Unknown"),
      StrOr(if m.Some? then m.value.fundingRate else None, "N/A"),
      StrOr(if m.Some? then m.value.longShortRatio else None, "N/A"),
      StrOr(r.reasoning, "No reasoning provided"),
      StrOr(r.symbol, "Unknown"),
      now)
  }

  const ServerError := "Internal server error"

  /** The handler, at time `now`. `form` is the parsed multipart body, `None`
      when `request.formData()` throws. Every exception the route catches
      becomes a 500 with a fixed message. */
  function Post(form: Option<ChartField>, backend: Backend, now: Time): (r: Reply<Analysis>)
    ensures form.None? ==> r == Err(InternalError, ServerError)
    // a missing or empty `chart` entry is refused before its type is read
    ensures form == Some(NoChart) || form == Some(Text("")) ==> r == Err(BadRequest, "No file provided")
    // a non-empty text entry has no `type`, so reading it throws
    ensures form.Some? && form.value.Text? && form.value.text != "" ==> r == Err(InternalError, ServerError)
    ensures (form.Some? && form.value.Upload? && !StartsWith(form.value.file.mimeType, "image/")) ==>
              r == Err(BadRequest, "Invalid file type. Please upload an image.")
    // past the checks, a thrown fetch or an unparsable answer is a 500
    ensures (form.Some? && form.value.Upload? && StartsWith(form.value.file.mimeType, "image/")
             && (backend.FetchFailed? || (IsOkStatus(backend.status) && backend.json.None?))) ==>
              r == Err(InternalError, ServerError)
    // a failing backend status is passed on with a fixed message
    ensures (form.Some? && form.value.Upload? && StartsWith(form.value.file.mimeType, "image/")
             && backend.Responded? && !IsOkStatus(backend.status)) ==> r == Err(backend.status, "Analysis failed")
    ensures r.Ok? <==> form.Some? && form.value.Upload? && StartsWith(form.value.file.mimeType, "image/")
                       && backend.Responded? && IsOkStatus(backend.status) && backend.json.Some?
    // a successful answer is the backend's result with every field defaulted
    ensures r.Ok? ==> r.body == Fill(backend.json.value, now)
    // every text field of a successful analysis is non-empty
    ensures r.Ok? ==>
              && r.body.bias != "" && r.body.entry != "" && r.body.stopLoss != ""
              && r.body.takeProfit != "" && r.body.recommendation != ""
              && r.body.liquidationRisk != "" && r.body.fundingRate != ""
              && r.body.longShortRatio != "" && r.body.reasoning != "" && r.body.symbol != ""
  {
    if form.None? then Err(InternalError, ServerError)
    else
      match form.value
      case NoChart => Err(BadRequest, "No file provided")
      case Text(text) =>
        if text == "" then Err(BadRequest, "No file provided") else Err(InternalError, ServerError)
      case Upload(file) =>
        if !StartsWith(file.mimeType, "image/") then
          Err(BadRequest, "Invalid file type. Please upload an image.")
        else
          match backend
          case FetchFailed => Err(InternalError, ServerError)
          case Responded(status, json) =>
            if !IsOkStatus(status) then Err(status, "Analysis failed")
            else if json.None? then Err(InternalError, ServerError)
            else Ok(Fill(json.value, now))
  }

  /** Field by field, the answer passes non-empty (for numbers: non-zero,
      for `override`: true) backend values through and puts the literal
      default in place of a missing part, a missing field or a falsy value. */
  lemma FillFields(r: BackendResult, now: Time)
    ensures var a := Fill(r, now);
      var t := r.technical;
      && (t.Some? && Truthy(t.value.bias) ==> a.bias == t.value.bias.value)
      && (!(t.Some? && Truthy(t.value.bias)) ==> a.bias == "NEUTRAL")
      && (t.Some? && t.value.confidence.Some? && t.value.confidence.value != 0.0 ==>
            a.confidence == t.value.confidence.value)
      && (!(t.Some? && t.value.confidence.Some? && t.value.confidence.value != 0.0) ==> a.confidence == 0.0)
      && (t.Some? && Truthy(t.value.entry) ==> a.entry == t.value.entry.value)
      && (!(t.Some? && Truthy(t.value.entry)) ==> a.entry == "N/A")
      && (t.Some? && Truthy(t.value.stopLoss) ==> a.stopLoss == t.value.stopLoss.value)
      && (!(t.Some? && Truthy(t.value.stopLoss)) ==> a.stopLoss == "N/A")
      && (t.Some? && Truthy(t.value.takeProfit) ==> a.takeProfit == t.value.takeProfit.value)
      && (!(t.Some? && Truthy(t.value.takeProfit)) ==> a.takeProfit == "N/A")
    ensures var a := Fill(r, now);
      var m := r.smart;
      && (m.Some? && Truthy(m.value.recommendation) ==> a.recommendation == m.value.recommendation.value)
      && (!(m.Some? && Truthy(m.value.recommendation)) ==> a.recommendation == "NEUTRAL")
      && (a.override <==> m.Some? && m.value.override == Some(true))
      && (m.Some? && Truthy(m.value.liquidationRisk) ==> a.liquidationRisk == m.value.liquidationRisk.value)
      && (!(m.Some? && Truthy(m.value.liquidationRisk)) ==> a.liquidationRisk == "Unknown")
      && (m.Some? && Truthy(m.value.fundingRate) ==> a.fundingRate == m.value.fundingRate.value)
      && (!(m.Some? && Truthy(m.value.fundingRate)) ==> a.fundingRate == "N/A")
      && (m.Some? && Truthy(m.value.longShortRatio) ==> a.longShortRatio == m.value.longShortRatio.value)
      && (!(m.Some? && Truthy(m.value.longShortRatio)) ==> a.longShortRatio == "N/A")
    ensures var a := Fill(r, now);
      && (Truthy(r.reasoning) ==> a.reasoning == r.reasoning.value)
      && (!Truthy(r.reasoning) ==> a.reasoning == "No reasoning provided")
      && (Truthy(r.symbol) ==> a.symbol == r.symbol.value)
      && (!Truthy(r.symbol) ==> a.symbol == "Unknown")
      && a.timestamp == now
  {
  }
}

=== FILE: auth.dfy ===
/** The sign-in configuration: the credentials `authorize` decision chain,
    the `jwt` and `session` callbacks that carry the user id and tier into
    the session, and the `signIn` callback that gives OAuth users a default
    tier. Password hashing and the session machinery are outside the model. */
module Auth {
  import opened Wrappers
  import opened Js
  import opened Accounts

  /** What `authorize` returns on success. */
  datatype AuthUser = AuthUser(id: UserId, email: Option<string>, name: Option<string>, tier: string)

  /** `bcrypt.compare(password, hash)`, supplied by the caller. */
  type PasswordCheck = (string, string) -> bool

  /** `authorize(credentials)`: the user, or the message it throws. */
  function Authorize(s: Store, email: Option<string>, password: Option<string>,
                     matches: PasswordCheck): (r: Result<AuthUser, string>)
    ensures !Truthy(email) || !Truthy(password) ==> r == Failure("Invalid credentials")
    ensures Truthy(email) && Truthy(password) && ByEmail(s, email.value).None? ==> r == Failure("User not found")
    ensures Truthy(email) && Truthy(password) && ByEmail(s, email.value).Some? ==>
              var a := s[ByEmail(s, email.value).value].account;
              && (!Truthy(a.passwordHash) ==> r == Failure("User not found"))
              && (Truthy(a.passwordHash) && !matches(password.value, a.passwordHash.value) ==>
                    r == Failure("Invalid password"))
    // success only for a stored user whose hash accepts the password, with a non-empty tier
    ensures r.Success? ==>
              && Truthy(email) && Truthy(password)
              && ByEmail(s, email.value).Some?
              && var a := s[ByEmail(s, email.value).value].account;
              && r.value.id == s[ByEmail(s, email.value).value].id
              && r.value.email == email
              && Truthy(a.passwordHash) && matches(password.value, a.passwordHash.value)
              && r.value.tier != ""
              && (!Truthy(a.tier) ==> r.value.tier == FREE)
              && (Truthy(a.tier) ==> r.value.tier == a.tier.value)
              && r.value.name == a.name
    // and a stored user whose hash accepts the password always signs in
    ensures Truthy(email) && Truthy(password) && ByEmail(s, email.value).Some? ==>
              var a := s[ByEmail(s, email.value).value].account;
              Truthy(a.passwordHash) && matches(password.value, a.passwordHash.value) ==> r.Success?
  {
    if !Truthy(email) || !Truthy(password) then Failure("Invalid credentials")
    else
      match ByEmail(s, email.value)
      case None => Failure("User not found")
      case Some(i) =>
        var a := s[i].account;
        if !Truthy(a.passwordHash) then Failure("User not found")
        else if !matches(password.value, a.passwordHash.value) then Failure("Invalid password")
        else Success(AuthUser(s[i].id, a.email, a.name, EffectiveTier(a)))
  }

  /** The JWT's claims the callbacks read and write. */
  datatype Token = Token(sub: Option<string>, id: Option<string>, tier: Option<string>)

  /** The `user` the `jwt` callback receives at sign-in. */
  datatype SignedInUser = SignedInUser(id: UserId, tier: Option<string>)

  /** `jwt({ token, user })`: copies id and tier when `user` is present. */
  function Jwt(token: Token, user: Option<SignedInUser>): (t: Token)
    ensures user.None? ==> t == token
    ensures user.Some? ==> t.id == Some(user.value.id) && t.tier == user.value.tier
    ensures t.sub == token.sub
  {
    if user.Some? then token.(id := Some(user.value.id), tier := user.value.tier) else token
  }

  datatype SessionUser = SessionUser(name: Option<string>, email: Option<string>,
                                     id: Option<string>, tier: Option<string>)

  /** `session({ session, token })`: exposes the token's id and tier. */
  function Session(user: SessionUser, token: Option<Token>): (u: SessionUser)
    ensures token.Some? ==> u.id == token.value.id && u.tier == token.value.tier
    ensures token.None? ==> u == user
    ensures u.name == user.name && u.email == user.email
  {
    if token.Some? then user.(id := token.value.id, tier := token.value.tier) else user
  }

  /** A credentials sign-in reaches the session: the session carries the
      authorized user's id and tier ("FREE" when the record has none). */
  lemma SessionCarriesAuthorizedUser(s: Store, email: Option<string>, password: Option<string>,
                                     matches: PasswordCheck, token: Token, user: SessionUser)
    requires Authorize(s, email, password, matches).Success?
    ensures var au := Authorize(s, email, password, matches).value;
      var u := Session(user, Some(Jwt(token, Some(SignedInUser(au.id, Some(au.tier))))));
      && u.id == Some(au.id)
      && u.tier == Some(au.tier)
      && Truthy(u.tier)
  {
  }

  /** A later token refresh (no `user`) keeps what sign-in put in the token. */
  lemma RefreshKeepsClaims(token: Token, user: SignedInUser, session: SessionUser)
    ensures var t := Jwt(Jwt(token, Some(user)), None);
      Session(session, Some(t)).id == Some(user.id) && Session(session, Some(t)).tier == user.tier
  {
  }

  /** The fields a new OAuth user's document is inserted with. */
  function NewOAuthAccount(email: string, now: Time): Account {
    EmptyAccount.(email := Some(email), tier := Some(FREE), monthlyAnalyses := Some(0),
                  analysesResetDate := Some(now), createdAt := Some(now))
  }

  /** `signIn({ user, account })`: `provider` is `account?.provider`, `email`
      is `user.email`, `newId` the `_id` an upsert would insert with. Always
      answers `true`; returns the store after its writes. */
  function SignIn(s: Store, provider: Option<string>, email: Option<string>,
                  newId: UserId, now: Time): (r: (bool, Store))
    ensures r.0
    // credentials sign-ins, and sign-ins without an email, write nothing
    ensures provider == Some("credentials") || !Truthy(email) ==> r.1 == s
    ensures provider != Some("credentials") && Truthy(email) ==>
              && ByEmail(r.1, email.value).Some?
              && Truthy(r.1[ByEmail(r.1, email.value).value].account.tier)
    // a new user is appended with tier FREE and a zero analysis counter
    ensures provider != Some("credentials") && Truthy(email) && ByEmail(s, email.value).None? ==>
              && r.1 == s + [User(newId, NewOAuthAccount(email.value, now))]
              && r.1[|s|].account.tier == Some(FREE)
              && r.1[|s|].account.monthlyAnalyses == Some(0)
    // an existing user keeps a tier it has, PRO included, and gets FREE when it has none
    ensures provider != Some("credentials") && Truthy(email) && ByEmail(s, email.value).Some? ==>
              var i := ByEmail(s, email.value).value;
              && (Truthy(s[i].account.tier) ==> r.1 == s)
              && (!Truthy(s[i].account.tier) ==>
                    && OnlyChanged(s, r.1, i)
                    && r.1[i].account.tier == Some(FREE)
                    && r.1[i].account.monthlyAnalyses == Some(0)
                    && r.1[i].account.analysesResetDate == Some(now)
                    && r.1[i].account.creditsRemaining == s[i].account.creditsRemaining
                    // every field outside the `$set` is kept
                    && r.1[i].account.(tier := s[i].account.tier,
                                       monthlyAnalyses := s[i].account.monthlyAnalyses,
                                       analysesResetDate := s[i].account.analysesResetDate) == s[i].account)
  {
    if provider == Some("credentials") || !Truthy(email) then (true, s)
    else
      match ByEmail(s, email.value)
      case None =>
        var t := s + [User(newId, NewOAuthAccount(email.value, now))];
        assert ByEmail(t, email.value).Some? by {
          assert t[|s|].account.email == Some(email.value);
        }
        (true, t)
      case Some(i) =>
        if Truthy(s[i].account.tier) then (true, s)
        else
          var a := s[i].account.(tier := Some(FREE), monthlyAnalyses := Some(0),
                                 analysesResetDate := Some(now));
          var t := SetAccount(s, i, a);
          ByEmailStable(s, t, email.value, i);
          (true, t)
  }

  /** Signing in again writes nothing more: the first sign-in left a tier. */
  lemma SignInIdempotent(s: Store, provider: Option<string>, email: Option<string>,
                         id1: UserId, id2: UserId, t1: Time, t2: Time)
    ensures var s1 := SignIn(s, provider, email, id1, t1).1;
      SignIn(s1, provider, email, id2, t2).1 == s1
  {
  }

  /** With a fresh `_id` for the upsert, sign-in keeps `_id`s unique. */
  lemma SignInKeepsIdsUnique(s: Store, provider: Option<string>, email: Option<string>,
                             newId: UserId, now: Time)
    requires UniqueIds(s)
    requires ById(s, newId).None?
    ensures UniqueIds(SignIn(s, provider, email, newId, now).1)
  {
    var t := SignIn(s, provider, email, newId, now).1;
    forall j, k | 0 <= j < k < |t|
      ensures t[j].id != t[k].id
    {
      if k == |s| {
        assert t[j] == s[j];
      } else {
        assert t[j].id == s[j].id && t[k].id == s[k].id;
      }
    }
  }
}

=== FILE: crypto_checkout.dfy ===
/** `/api/crypto-checkout`. `POST` builds the $79 invoice request whose order
    reference carries the user id back to the payment webhook; `GET` either
    looks up a payment's status (signed-in users only) or lists the provider's
    currencies filtered to a fixed list of popular ones. The provider calls
    themselves are outside the model: the handlers return what they would ask
    the provider for. */
module CryptoCheckout {
  import opened Wrappers
  import opened Js
  import opened Http
  import opened Accounts
  import OrderId
  import opened Seqs

  /** The invoice the handler asks the provider to create. The chosen
      cryptocurrency is checked for presence but not sent. */
  datatype InvoiceRequest = InvoiceRequest(
    priceAmount: int,
    priceCurrency: string,
    orderId: string,
    orderDescription: string)

  const PriceUsd := 79
  const Description := "TradeSignal AI PRO Monthly Subscription"

  const CheckoutFailed := "Failed to create crypto payment"

  /** `POST`: `session` is the signed-in user id, `body` the request body's
      `cryptocurrency` field, or `Failure` with the thrown error's message
      when `request.json()` throws or the body is `null`; `now` is the value
      of `Date.now()`. */
  function Checkout(session: Option<UserId>, body: Result<Option<string>, string>, now: nat): (r: Reply<InvoiceRequest>)
    ensures session.None? ==> r == Err(Unauthorized, "Unauthorized. Please sign in.")
    // the body is read only after the session check; a failure to read it is a 500
    ensures session.Some? && body.Failure? && body.error != "" ==> r == Err(InternalError, body.error)
    ensures session.Some? && body.Failure? && body.error == "" ==> r == Err(InternalError, CheckoutFailed)
    ensures session.Some? && body.Success? && !Truthy(body.value) ==> r == Err(BadRequest, "Cryptocurrency is required")
    ensures r.Ok? <==> session.Some? && body.Success? && Truthy(body.value)
    ensures r.Ok? ==> r.body.priceAmount == PriceUsd && r.body.priceCurrency == "USD"
    ensures r.Ok? ==> r.body.orderId == OrderId.Encode(session.value, now)
    // the payment webhook will credit this payment to the same user
    ensures r.Ok? && OrderId.IsHexId(session.value) ==> OrderId.Parse(r.body.orderId) == session
  {
    if session.None? then Err(Unauthorized, "Unauthorized. Please sign in.")
    else if body.Failure? then Err(InternalError, StrOr(Some(body.error), CheckoutFailed))
    else if !Truthy(body.value) then Err(BadRequest, "Cryptocurrency is required")
    else
      var invoice := InvoiceRequest(PriceUsd, "USD", OrderId.Encode(session.value, now), Description);
      OrderId.ParseEncode(session.value, now);
      Ok(invoice)
  }

  /** The currencies shown to users; the provider's list is filtered to these. */
  const Popular: seq<string> := [
    "btc", "eth", "usdt", "usdc", "bnb", "sol", "ada", "xrp",
    "ltc", "doge", "matic", "trx", "dot", "avax", "link", "atom"
  ]

  predicate IsPopular(c: string) {
    Lower(c) in Popular
  }

  /** `currencies.filter(c => popularCryptos.includes(c.toLowerCase()))`. */
  function FilterPopular(cs: seq<string>): (r: seq<string>)
    ensures IsSubsequence(r, cs)
    ensures forall c :: c in r <==> c in cs && IsPopular(c)
    // every popular entry is kept as often as it occurs, every other one is dropped
    ensures forall c :: multiset(r)[c] == if IsPopular(c) then multiset(cs)[c] else 0
    ensures |r| <= |cs|
  {
    Filter(IsPopular, cs)
  }

  datatype CurrencyReply =
    | PaymentStatusLookup(paymentId: string)
    | Currencies(currencies: seq<string>, allCurrencies: nat)

  /** `GET`: `paymentId` is the `payment_id` query parameter and `available`
      the provider's currency list. */
  function CurrenciesOrStatus(paymentId: Option<string>, session: Option<UserId>,
                              available: seq<string>): (r: Reply<CurrencyReply>)
    ensures Truthy(paymentId) && session.None? ==> r == Err(Unauthorized, "Unauthorized")
    ensures Truthy(paymentId) && session.Some? ==> r == Ok(PaymentStatusLookup(paymentId.value))
    // without a payment id no session is needed
    ensures !Truthy(paymentId) ==> r.Ok? && r.body.Currencies?
    ensures !Truthy(paymentId) ==>
              && r.body.allCurrencies == |available|
              && IsSubsequence(r.body.currencies, available)
              && (forall c :: c in r.body.currencies <==> c in available && IsPopular(c))
              && forall c :: multiset(r.body.currencies)[c] == if IsPopular(c) then multiset(available)[c] else 0
  {
    if Truthy(paymentId) then
      if session.None? then Err(Unauthorized, "Unauthorized")
      else Ok(PaymentStatusLookup(paymentId.value))
    else
      Ok(Currencies(FilterPopular(available), |available|))
  }
}

=== FILE: daily_picks.dfy ===
/** `GET /api/daily-picks`: a PRO-only view of today's newest daily-signal
    document, each signal mapped to a pick with defaults for missing fields. */
module DailyPicks {
  import opened Wrappers
  import opened Js
  import opened Http
  import opened Accounts
  import opened Signals
  import Decimal

  datatype Pick = Pick(
    id: string,
    symbol: Option<string>,
    timeframe: string,
    recommendation: Option<string>,
    confidence: Option<real>,
    entry: string,
    stopLoss: string,
    takeProfit: string,
    reasoning: string,
    timestamp: Time)

  datatype PicksReply =
    | NoPicksYet
    | Picks(picks: seq<Pick>, date: Option<Time>, generatedAt: Option<Time>)

  const DefaultReasoning := "Technical analysis + SMART engine validation"
  const ProOnly := "Daily picks are only available for PRO users"

  /** The filter `{ date: { $gte: today, $lt: tomorrow } }`. */
  predicate InWindow(d: DailyDoc, today: Time, tomorrow: Time) {
    d.date.Some? && today <= d.date.value < tomorrow
  }

  /** `.find(window).sort({ createdAt: -1 }).limit(1)`: the in-window document
      with the newest `createdAt`, the earliest in the collection among equals. */
  function Newest(docs: seq<DailyDoc>, today: Time, tomorrow: Time): (r: Option<DailyDoc>)
    ensures r.None? <==> forall d :: d in docs ==> !InWindow(d, today, tomorrow)
    ensures r.Some? ==> r.value in docs && InWindow(r.value, today, tomorrow)
    ensures r.Some? ==> forall d :: d in docs && InWindow(d, today, tomorrow) ==>
                                    !OlderThan(r.value.createdAt, d.createdAt)
  {
    if |docs| == 0 then None
    else
      var rest := Newest(docs[1..], today, tomorrow);
      assert forall d :: d in docs ==> d == docs[0] || d in docs[1..];
      if !InWindow(docs[0], today, tomorrow) then rest
      else if rest.Some? && OlderThan(docs[0].createdAt, rest.value.createdAt) then rest
      else Some(docs[0])
  }

  /** `` `${docId}-${index}` ``. */
  function PickId(docId: string, index: nat): string {
    docId + "-" + Decimal.FromNat(index)
  }

  /** Pick ids of one document differ whenever their indices do. */
  lemma PickIdInjective(docId: string, i: nat, j: nat)
    requires PickId(docId, i) == PickId(docId, j)
    ensures i == j
  {
    var n := |docId| + 1;
    assert PickId(docId, i)[n..] == Decimal.FromNat(i);
    assert PickId(docId, j)[n..] == Decimal.FromNat(j);
    Decimal.FromNatInjective(i, j);
  }

  function ToPick(doc: DailyDoc, index: nat, sig: DailySignal, now: Time): Pick {
    Pick(PickId(doc.id, index),
         sig.symbol,
         StrOr(sig.timeframe, "1h"),
         sig.recommendation,
         sig.confidence,
         StrOr(sig.entry, "Market"),
         StrOr(sig.stopLoss, "N/A"),
         StrOr(sig.takeProfit, "N/A"),
         StrOr(sig.reasoning, DefaultReasoning),
         doc.createdAt.GetOr(now))
  }

  /** `latestSignal.signals.map(...)`. */
  function ToPicks(doc: DailyDoc, signals: seq<DailySignal>, now: Time): (picks: seq<Pick>)
    ensures |picks| == |signals|
    ensures forall i, j :: 0 <= i < j < |picks| ==> picks[i].id != picks[j].id
    ensures forall i :: 0 <= i < |picks| ==>
              && picks[i].symbol == signals[i].symbol
              && picks[i].confidence == signals[i].confidence
              && picks[i].timeframe != "" && picks[i].entry != ""
              && picks[i].stopLoss != "" && picks[i].takeProfit != ""
              && picks[i].reasoning != ""
    // each pick carries its signal's recommendation and its position in the id
    ensures forall i :: 0 <= i < |picks| ==>
              && picks[i].id == PickId(doc.id, i)
              && picks[i].recommendation == signals[i].recommendation
    // non-empty text of the signal is passed through; empty or missing text takes the default
    ensures forall i :: 0 <= i < |picks| ==>
              && (Truthy(signals[i].timeframe) ==> picks[i].timeframe == signals[i].timeframe.value)
              && (!Truthy(signals[i].timeframe) ==> picks[i].timeframe == "1h")
              && (Truthy(signals[i].entry) ==> picks[i].entry == signals[i].entry.value)
              && (!Truthy(signals[i].entry) ==> picks[i].entry == "Market")
              && (Truthy(signals[i].stopLoss) ==> picks[i].stopLoss == signals[i].stopLoss.value)
              && (!Truthy(signals[i].stopLoss) ==> picks[i].stopLoss == "N/A")
              && (Truthy(signals[i].takeProfit) ==> picks[i].takeProfit == signals[i].takeProfit.value)
              && (!Truthy(signals[i].takeProfit) ==> picks[i].takeProfit == "N/A")
              && (Truthy(signals[i].reasoning) ==> picks[i].reasoning == signals[i].reasoning.value)
              && (!Truthy(signals[i].reasoning) ==> picks[i].reasoning == DefaultReasoning)
    // every pick is stamped with the document's creation time, or `now` without one
    ensures forall i :: 0 <= i < |picks| ==>
              && (doc.createdAt.Some? ==> picks[i].timestamp == doc.createdAt.value)
              && (doc.createdAt.None? ==> picks[i].timestamp == now)
  {
    var picks := seq(|signals|, i requires 0 <= i < |signals| => ToPick(doc, i, signals[i], now));
    forall i, j | 0 <= i < j < |picks|
      ensures picks[i].id != picks[j].id
    {
      if picks[i].id == picks[j].id {
        PickIdInjective(doc.id, i, j);
      }
    }
    picks
  }

  /** The handler. `docs` is the `dailysignals` collection, `today` and
      `tomorrow` the local midnights around `now`. */
  function Get(s: Store, session: Option<UserId>, docs: seq<DailyDoc>,
               today: Time, tomorrow: Time, now: Time): (r: Reply<PicksReply>)
    ensures session.None? ==> r == Err(Unauthorized, "Unauthorized. Please sign in.")
    ensures session.Some? && ById(s, session.value).None? ==> r == Err(NotFound, "User not found")
    // any tier other than exactly "PRO", a missing one included, is refused
    ensures session.Some? && ById(s, session.value).Some? ==>
              (r == Err(Forbidden, ProOnly) <==> !IsPro(s[ById(s, session.value).value].account))
    ensures r.Ok? ==> session.Some? && ById(s, session.value).Some? && IsPro(s[ById(s, session.value).value].account)
    ensures r == Ok(NoPicksYet) <==> (r.Ok? && forall d :: d in docs ==> !InWindow(d, today, tomorrow))
    // a PRO user is always answered: no document today gives the empty answer, today's
    // newest document gives its picks, and only a document without a `signals` array fails
    ensures session.Some? && ById(s, session.value).Some? && IsPro(s[ById(s, session.value).value].account) ==>
              && (Newest(docs, today, tomorrow).None? ==> r == Ok(NoPicksYet))
              && (Newest(docs, today, tomorrow).Some? && Newest(docs, today, tomorrow).value.signals.Some? ==>
                    r.Ok? && r.body.Picks?)
              && (Newest(docs, today, tomorrow).Some? && Newest(docs, today, tomorrow).value.signals.None? ==>
                    r == Err(InternalError, "Internal server error"))
    ensures r.Ok? && r.body.Picks? ==>
              var d := Newest(docs, today, tomorrow).value;
              && d.signals.Some?
              && |r.body.picks| == |d.signals.value|
              && r.body.date == d.date
              && r.body.generatedAt == d.createdAt
              && r.body.picks == ToPicks(d, d.signals.value, now)
              && forall i, j :: 0 <= i < j < |r.body.picks| ==> r.body.picks[i].id != r.body.picks[j].id
  {
    if session.None? then Err(Unauthorized, "Unauthorized. Please sign in.")
    else
      match ById(s, session.value)
      case None => Err(NotFound, "User not found")
      case Some(i) =>
        if !IsPro(s[i].account) then Err(Forbidden, ProOnly)
        else
          match Newest(docs, today, tomorrow)
          case None => Ok(NoPicksYet)
          case Some(d) =>
            if d.signals.None? then Err(InternalError, "Internal server error")
            else Ok(Picks(ToPicks(d, d.signals.value, now), d.date, d.createdAt))
  }
}

=== FILE: decimal.dfy ===
/** Decimal rendering of natural numbers, as a template literal `${n}` does for
    `Date.now()` and for array indices, together with its inverse. */
module Decimal {

  predicate IsDigit(c: char) {
    '0' <= c <= '9'
  }

  predicate AllDigits(s: string) {
    forall i :: 0 <= i < |s| ==> IsDigit(s[i])
  }

  function DigitChar(d: nat): char
    requires d < 10
  {
    ('0' as int + d) as char
  }

  function DigitValue(c: char): nat
    requires IsDigit(c)
  {
    c as int - '0' as int
  }

  /** The decimal text of `n`, without sign or leading zeros. */
  function FromNat(n: nat): (s: string)
    ensures |s| > 0
    ensures AllDigits(s)
    decreases n
  {
    if n < 10 then [DigitChar(n)] else FromNat(n / 10) + [DigitChar(n % 10)]
  }

  /** The value of a string of decimal digits. */
  function ToNat(s: string): nat
    requires AllDigits(s)
  {
    if |s| == 0 then 0 else ToNat(s[..|s| - 1]) * 10 + DigitValue(s[|s| - 1])
  }

  /** Reading back the decimal text of `n` gives `n`. */
  lemma {:induction false} ToNatFromNat(n: nat)
    ensures ToNat(FromNat(n)) == n
    decreases n
  {
    if n >= 10 {
      var s := FromNat(n);
      assert s[..|s| - 1] == FromNat(n / 10);
      ToNatFromNat(n / 10);
    }
  }

  /** Distinct numbers have distinct decimal texts. */
  lemma FromNatInjective(m: nat, n: nat)
    requires FromNat(m) == FromNat(n)
    ensures m == n
  {
    ToNatFromNat(m);
    ToNatFromNat(n);
  }
}

=== FILE: entitlement.dfy ===
/** How the payment webhooks and the request-time gates fit together: the
    gates read the record fresh on every request, so a transition a webhook
    applies decides the next `consume`, `check` and daily-picks request. */
module Entitlement {
  import opened Wrappers
  import opened Http
  import opened Accounts
  import Usage
  import DailyPicks
  import NowPayments
  import StripeWebhook
  import OrderId
  import Signals

  /** A finished crypto payment for `u` makes every later `consume` by `u`
      succeed as PRO without a write, and opens the daily picks. */
  lemma FinishedPaymentUnlocks(s: Store, p: NowPayments.IpnPayload, u: UserId, now: Time,
                               later: Time, docs: seq<Signals.DailyDoc>, today: Time, tomorrow: Time)
    requires p.orderId.Some? && OrderId.Parse(p.orderId.value) == Some(u)
    requires p.paymentStatus == Some("finished")
    requires ById(s, u).Some?
    ensures var t := NowPayments.Apply(s, p, now).1;
      && Usage.Consume(t, Some(u), later) == (Ok(Usage.Consumed(PRO, Unlimited)), t)
      && Usage.Check(t, Some(u)).Ok? && Usage.Check(t, Some(u)).body.canAnalyze
      && DailyPicks.Get(t, Some(u), docs, today, tomorrow, later) != Err(Forbidden, DailyPicks.ProOnly)
    // the picks request succeeds unless today's newest document lacks a `signals` array
    ensures var t := NowPayments.Apply(s, p, now).1;
      var newest := DailyPicks.Newest(docs, today, tomorrow);
      newest.None? || newest.value.signals.Some? ==> DailyPicks.Get(t, Some(u), docs, today, tomorrow, later).Ok?
  {
    var t := NowPayments.Apply(s, p, now).1;
    NowPayments.TransitionEffects(s, p, now);
    ByIdStable(s, t, u);
  }

  /** After a refund, `u` is FREE again with exactly five analyses left:
      five `consume` requests succeed and the sixth is refused. */
  lemma RefundLeavesFiveAnalyses(s: Store, p: NowPayments.IpnPayload, u: UserId, now: Time, later: Time)
    requires p.orderId.Some? && OrderId.Parse(p.orderId.value) == Some(u)
    requires p.paymentStatus == Some("refunded")
    requires ById(s, u).Some?
    ensures var t := NowPayments.Apply(s, p, now).1;
      var (replies, t') := Usage.ConsumeTimes(t, u, later, FreeAllotment);
      && |replies| == FreeAllotment
      && (forall j :: 0 <= j < FreeAllotment ==> replies[j].Ok?)
      && Usage.Consume(t', Some(u), later).0 == Err(Forbidden, Usage.NoCreditsMessage)
  {
    var t := NowPayments.Apply(s, p, now).1;
    NowPayments.TransitionEffects(s, p, now);
    ByIdStable(s, t, u);
    Usage.CreditsRunOut(t, u, later, FreeAllotment);
  }

  /** A completed card checkout naming `u` makes every later `consume` by `u`
      succeed as PRO without a write. */
  lemma CheckoutUnlocks(s: Store, e: StripeWebhook.Event, u: UserId, now: Time, later: Time)
    requires e.eventType == StripeWebhook.CheckoutCompleted
    requires StripeWebhook.CheckoutUser(e.data) == Some(u)
    requires ById(s, u).Some?
    ensures var t := StripeWebhook.ApplyEvent(s, e, now);
      Usage.Consume(t, Some(u), later) == (Ok(Usage.Consumed(PRO, Unlimited)), t)
  {
    var t := StripeWebhook.ApplyEvent(s, e, now);
    StripeWebhook.CheckoutUpgrades(s, e, now);
    ByIdStable(s, t, u);
  }

  /** A canceled card subscription closes the daily picks to the linked user
      and leaves it five analyses. */
  lemma CancellationDowngrades(s: Store, e: StripeWebhook.Event, now: Time, later: Time,
                               docs: seq<Signals.DailyDoc>, today: Time, tomorrow: Time)
    requires e.eventType == StripeWebhook.SubscriptionDeleted
    requires ByCustomer(s, e.data.customer).Some?
    requires UniqueIds(s)
    ensures var t := StripeWebhook.ApplyEvent(s, e, now);
      var u := s[ByCustomer(s, e.data.customer).value].id;
      && DailyPicks.Get(t, Some(u), docs, today, tomorrow, later) == Err(Forbidden, DailyPicks.ProOnly)
      && Usage.Check(t, Some(u)) == Ok(Usage.UsageInfo(FREE, FreeAllotment, true))
  {
    var t := StripeWebhook.ApplyEvent(s, e, now);
    var i := ByCustomer(s, e.data.customer).value;
    var u := s[i].id;
    StripeWebhook.SubscriptionDeleteDowngrades(s, e, now);
    assert ById(s, u) == Some(i);
    ByIdStable(s, t, u);
  }
}

=== FILE: http.dfy ===
/** The shape of a route handler's answer: a JSON body with status 200, or an
    error message with an HTTP status code. */
module Http {

  datatype Reply<+T> = Ok(body: T) | Err(status: int, message: string)

  /** The `{ received: true }` body both payment webhooks acknowledge with. */
  datatype Ack = Received

  const BadRequest := 400
  const Unauthorized := 401
  const Forbidden := 403
  const NotFound := 404
  const InternalError := 500
}

=== FILE: js.dfy ===
/** The few pieces of JavaScript semantics the request handlers rely on:
    truthiness of optional strings and numbers (the `x || d` defaulting idiom)
    and ASCII case conversion. */
module Js {
  import opened Wrappers

  /** A string field is truthy when it is present and not empty. */
  predicate Truthy(s: Option<string>) {
    s.Some? && s.value != ""
  }

  /** `s || d` for an optional string field. */
  function StrOr(s: Option<string>, d: string): string {
    if Truthy(s) then s.value else d
  }

  /** `n || d` for an optional number field: absent and 0 are falsy. */
  function IntOr(n: Option<int>, d: int): int {
    if n.Some? && n.value != 0 then n.value else d
  }

  /** `n || d` for an optional JavaScript number read as a real: absent and
      0 are falsy (JSON carries no NaN). */
  function RealOr(n: Option<real>, d: real): real {
    if n.Some? && n.value != 0.0 then n.value else d
  }

  /** `a || b` for two optional strings, absent when both are falsy. */
  function FirstTruthy(a: Option<string>, b: Option<string>): Option<string> {
    if Truthy(a) then a else if Truthy(b) then b else None
  }

  function LowerChar(c: char): char {
    if 'A' <= c <= 'Z' then (c as int + 32) as char else c
  }

  function UpperChar(c: char): char {
    if 'a' <= c <= 'z' then (c as int - 32) as char else c
  }

  /** `String.prototype.toLowerCase`, restricted to ASCII letters. */
  function Lower(s: string): string {
    seq(|s|, i requires 0 <= i < |s| => LowerChar(s[i]))
  }

  /** `String.prototype.toUpperCase`, restricted to ASCII letters. */
  function Upper(s: string): string {
    seq(|s|, i requires 0 <= i < |s| => UpperChar(s[i]))
  }

  /** `s.startsWith(prefix)`. */
  predicate StartsWith(s: string, prefix: string) {
    |prefix| <= |s| && s[..|prefix|] == prefix
  }
}

=== FILE: nowpayments.dfy ===
/** `POST /api/webhooks/nowpayments`: the crypto provider's payment
    notification (IPN). The handler checks the HMAC signature when both the
    secret and the header are present, recovers the user id from `order_id`,
    and overwrites fields of that user's record according to `payment_status`.
    There is no event-id record and no ordering check: every notification is
    applied as it arrives. */
module NowPayments {
  import opened Wrappers
  import opened Js
  import opened Http
  import opened Accounts
  import OrderId

  /** The fields of the notification body the handler reads. */
  datatype IpnPayload = IpnPayload(
    paymentId: Option<string>,
    paymentStatus: Option<string>,
    orderId: Option<string>,
    payAmount: Option<real>,
    payCurrency: Option<string>,
    priceAmount: Option<real>,
    priceCurrency: Option<string>)

  /** HMAC-SHA512 (RFC 2104 over SHA-512) of a text under the secret, as
      lower-case hex: supplied by the caller, never computed here. */
  type Hmac = (string, string) -> string

  const ProcessingFailed := "Webhook processing failed"

  /** The `$set` of a "finished" payment: PRO with unlimited credits. */
  function Finished(a: Account, p: IpnPayload, now: Time): Account {
    a.(tier := Some(PRO),
       cryptoPaymentId := p.paymentId,
       subscriptionStatus := Some("active"),
       subscriptionMethod := Some("crypto"),
       creditsRemaining := Some(Unlimited),
       lastPaymentDate := Some(now),
       lastPaymentAmount := p.priceAmount,
       lastPaymentCurrency := p.priceCurrency,
       lastPaymentCrypto := p.payCurrency,
       lastPaymentCryptoAmount := p.payAmount,
       updatedAt := Some(now))
  }

  /** The `$set` of a "failed" or "expired" payment: the status only. */
  function Lapsed(a: Account, p: IpnPayload, now: Time): Account {
    a.(lastPaymentStatus := p.paymentStatus, updatedAt := Some(now))
  }

  /** The `$set` of a "refunded" payment: back to FREE with the free allotment. */
  function Refunded(a: Account, now: Time): Account {
    a.(tier := Some(FREE), creditsRemaining := Some(FreeAllotment),
       subscriptionStatus := Some("refunded"), updatedAt := Some(now))
  }

  /** The `switch (payment_status)` applied to the user `userId`; an id that
      names no document updates nothing. */
  function Transition(s: Store, userId: UserId, p: IpnPayload, now: Time): Store {
    var i := ById(s, userId);
    match p.paymentStatus
    case Some("finished") => UpdateAt(s, i, a => Finished(a, p, now))
    case Some("failed") => UpdateAt(s, i, a => Lapsed(a, p, now))
    case Some("expired") => UpdateAt(s, i, a => Lapsed(a, p, now))
    case Some("refunded") => UpdateAt(s, i, a => Refunded(a, now))
    case _ => s
  }

  /** The handler after the signature gate: reads `order_id`, parses the user
      id and applies the transition. A missing `order_id` makes `.match` throw. */
  function Apply(s: Store, p: IpnPayload, now: Time): (r: (Reply<Ack>, Store))
    ensures p.orderId.None? ==> r == (Err(InternalError, ProcessingFailed), s)
    // an order reference without `sub_<hex>_` is acknowledged and changes nothing
    ensures p.orderId.Some? && OrderId.Parse(p.orderId.value).None? ==> r == (Ok(Received), s)
    ensures p.orderId.Some? ==> r.0 == Ok(Received)
    ensures SameIds(s, r.1)
    // the only document that can change is the one the order reference names
    ensures p.orderId.Some? && OrderId.Parse(p.orderId.value).Some? ==>
              var i := ById(s, OrderId.Parse(p.orderId.value).value);
              (i.None? ==> r.1 == s) && (i.Some? ==> OnlyChanged(s, r.1, i.value))
  {
    if p.orderId.None? then (Err(InternalError, ProcessingFailed), s)
    else
      match OrderId.Parse(p.orderId.value)
      case None => (Ok(Received), s)
      case Some(userId) =>
        UpdateAtFrame(s, ById(s, userId), a => Finished(a, p, now));
        UpdateAtFrame(s, ById(s, userId), a => Lapsed(a, p, now));
        UpdateAtFrame(s, ById(s, userId), a => Refunded(a, now));
        (Ok(Received), Transition(s, userId, p, now))
  }

  /** The whole handler. `body` is `None` when the request is not JSON,
      `bodyText` is `JSON.stringify` of the whole parsed body (every field,
      not only those in `IpnPayload`), `secret` is the configured IPN secret,
      `signature` the `x-nowpayments-sig` header. */
  function Handle(s: Store, secret: Option<string>, signature: Option<string>,
                  body: Option<IpnPayload>, bodyText: string, hmac: Hmac, now: Time): (r: (Reply<Ack>, Store))
    ensures body.None? ==> r == (Err(InternalError, ProcessingFailed), s)
    // with a secret and a header, a signature that differs from the recomputed one is refused
    ensures (body.Some? && Truthy(secret) && Truthy(signature)
             && signature.value != hmac(secret.value, bodyText)) ==>
              r == (Err(BadRequest, "Invalid signature"), s)
    // without a secret or without a header the body is processed unverified
    ensures body.Some? && !(Truthy(secret) && Truthy(signature)) ==> r == Apply(s, body.value, now)
    ensures (body.Some? && Truthy(secret) && Truthy(signature)
             && signature.value == hmac(secret.value, bodyText)) ==> r == Apply(s, body.value, now)
  {
    if body.None? then (Err(InternalError, ProcessingFailed), s)
    else if Truthy(secret) && Truthy(signature) && signature.value != hmac(secret.value, bodyText) then
      (Err(BadRequest, "Invalid signature"), s)
    else Apply(s, body.value, now)
  }

  /** The effect of each `payment_status` on the record the order names. */
  lemma TransitionEffects(s: Store, p: IpnPayload, now: Time)
    requires p.orderId.Some? && OrderId.Parse(p.orderId.value).Some?
    requires ById(s, OrderId.Parse(p.orderId.value).value).Some?
    ensures var i := ById(s, OrderId.Parse(p.orderId.value).value).value;
      var a := s[i].account;
      var t := Apply(s, p, now).1;
      && OnlyChanged(s, t, i)
      && (p.paymentStatus == Some("finished") ==>
            && t[i].account.tier == Some(PRO)
            && t[i].account.creditsRemaining == Some(Unlimited)
            && t[i].account.subscriptionStatus == Some("active")
            && t[i].account.subscriptionMethod == Some("crypto")
            && t[i].account.cryptoPaymentId == p.paymentId
            && t[i].account.lastPaymentAmount == p.priceAmount
            && t[i].account.lastPaymentCurrency == p.priceCurrency
            && t[i].account.lastPaymentCrypto == p.payCurrency
            && t[i].account.lastPaymentCryptoAmount == p.payAmount
            && t[i].account.lastPaymentDate == Some(now)
            && t[i].account.updatedAt == Some(now)
            // every field outside the `$set` is kept
            && t[i].account.(tier := a.tier, cryptoPaymentId := a.cryptoPaymentId,
                             subscriptionStatus := a.subscriptionStatus,
                             subscriptionMethod := a.subscriptionMethod,
                             creditsRemaining := a.creditsRemaining,
                             lastPaymentDate := a.lastPaymentDate,
                             lastPaymentAmount := a.lastPaymentAmount,
                             lastPaymentCurrency := a.lastPaymentCurrency,
                             lastPaymentCrypto := a.lastPaymentCrypto,
                             lastPaymentCryptoAmount := a.lastPaymentCryptoAmount,
                             updatedAt := a.updatedAt) == a)
      && (p.paymentStatus in {Some("failed"), Some("expired")} ==>
            && t[i].account.tier == a.tier
            && t[i].account.creditsRemaining == a.creditsRemaining
            && t[i].account.(lastPaymentStatus := a.lastPaymentStatus, updatedAt := a.updatedAt) == a
            && t[i].account.lastPaymentStatus == p.paymentStatus
            && t[i].account.updatedAt == Some(now))
      && (p.paymentStatus == Some("refunded") ==>
            && t[i].account.tier == Some(FREE)
            && t[i].account.creditsRemaining == Some(FreeAllotment)
            && t[i].account.subscriptionStatus == Some("refunded")
            && t[i].account.updatedAt == Some(now)
            && t[i].account.(tier := a.tier, creditsRemaining := a.creditsRemaining,
                             subscriptionStatus := a.subscriptionStatus,
                             updatedAt := a.updatedAt) == a)
  {
  }

  /** Statuses the switch only logs leave the store as it was. */
  lemma InformationalStatusesChangeNothing(s: Store, p: IpnPayload, now: Time)
    requires p.orderId.Some?
    requires p.paymentStatus !in {Some("finished"), Some("failed"), Some("expired"), Some("refunded")}
    ensures Apply(s, p, now) == (Ok(Received), s)
  {
  }

  /** Redelivery: applying a notification again at a later time gives the
      same store as applying it once at that time. */
  lemma ApplyIdempotent(s: Store, p: IpnPayload, t1: Time, t2: Time)
    ensures Apply(Apply(s, p, t1).1, p, t2).1 == Apply(s, p, t2).1
  {
    if p.orderId.Some? && OrderId.Parse(p.orderId.value).Some? {
      var u := OrderId.Parse(p.orderId.value).value;
      ByIdStable(s, Apply(s, p, t1).1, u);
    }
  }

  /** Two deliveries of one notification at different times differ only in
      their timestamps. */
  lemma ApplyClockIndependent(s: Store, p: IpnPayload, t1: Time, t2: Time)
    ensures var (a, b) := (Apply(s, p, t1).1, Apply(s, p, t2).1);
      |a| == |b| && forall j :: 0 <= j < |a| ==> a[j].id == b[j].id && Untimed(a[j].account) == Untimed(b[j].account)
  {
  }

  /** The tier a sequence of notifications last decided for `u`: the status of
      the last "finished" or "refunded" notification whose order names `u`. */
  function LastDecision(ps: seq<IpnPayload>, u: UserId): Option<string> {
    if |ps| == 0 then None
    else
      var p := ps[|ps| - 1];
      if p.orderId.Some? && OrderId.Parse(p.orderId.value) == Some(u) && p.paymentStatus == Some("finished") then Some(PRO)
      else if p.orderId.Some? && OrderId.Parse(p.orderId.value) == Some(u) && p.paymentStatus == Some("refunded") then Some(FREE)
      else LastDecision(ps[..|ps| - 1], u)
  }

  /** The store after the notifications `ps` are applied in order. */
  function ApplyAll(s: Store, ps: seq<IpnPayload>, now: Time): Store {
    if |ps| == 0 then s else Apply(ApplyAll(s, ps[..|ps| - 1], now), ps[|ps| - 1], now).1
  }

  /** Each transition overwrites the tier unconditionally, so after any
      sequence of notifications the tier of `u` is the one the last
      finished/refunded notification for `u` set, or the original tier. */
  lemma {:induction false} TierDecidedByLast(s: Store, ps: seq<IpnPayload>, u: UserId, now: Time)
    requires ById(s, u).Some?
    ensures SameIds(s, ApplyAll(s, ps, now))
    ensures var i := ById(s, u).value;
      ApplyAll(s, ps, now)[i].account.tier ==
        (if LastDecision(ps, u).Some? then LastDecision(ps, u) else s[i].account.tier)
    decreases |ps|
  {
    if |ps| > 0 {
      var prefix := ps[..|ps| - 1];
      var p := ps[|ps| - 1];
      TierDecidedByLast(s, prefix, u, now);
      var s' := ApplyAll(s, prefix, now);
      ByIdStable(s, s', u);
      var i := ById(s, u).value;
      if p.orderId.Some? && OrderId.Parse(p.orderId.value).Some? {
        var v := OrderId.Parse(p.orderId.value).value;
        if v == u {
          TransitionEffects(s', p, now);
        } else {
          var j := ById(s', v);
          if j.Some? {
            assert j.value != i by {
              assert s'[j.value].id == v;
              assert s'[i].id == u;
            }
          }
        }
      }
    }
  }
}

=== FILE: order_id.dfy ===
/** The crypto checkout's order reference `sub_{userId}_{timestamp}` and the
    webhook's recovery of the user id from it with the regular expression
    `/sub_([a-f0-9]+)_/` (unanchored, leftmost match, greedy group). */
module OrderId {
  import opened Wrappers
  import Decimal

  const Prefix := "sub_"

  predicate IsHexChar(c: char) {
    '0' <= c <= '9' || 'a' <= c <= 'f'
  }

  predicate AllHex(s: string) {
    forall i :: 0 <= i < |s| ==> IsHexChar(s[i])
  }

  /** A user id the pattern's group can capture: non-empty lower-case hex,
      as the string form of an ObjectId is. */
  predicate IsHexId(u: string) {
    |u| > 0 && AllHex(u)
  }

  /** `sub_${userId}_${timestamp}` with a millisecond timestamp. */
  function Encode(userId: string, timestamp: nat): string {
    Prefix + userId + "_" + Decimal.FromNat(timestamp)
  }

  /** The pattern matches at position `p` of `s` with group `u`. */
  ghost predicate MatchesAt(s: string, p: nat, u: string) {
    && IsHexId(u)
    && p + |Prefix| + |u| < |s|
    && s[p..p + |Prefix|] == Prefix
    && s[p + |Prefix|..p + |Prefix| + |u|] == u
    && s[p + |Prefix| + |u|] == '_'
  }

  /** End of the longest run of hex characters starting at `i`. */
  function HexRunEnd(s: string, i: nat): (j: nat)
    requires i <= |s|
    ensures i <= j <= |s|
    ensures forall k :: i <= k < j ==> IsHexChar(s[k])
    ensures j == |s| || !IsHexChar(s[j])
    decreases |s| - i
  {
    if i < |s| && IsHexChar(s[i]) then HexRunEnd(s, i + 1) else i
  }

  /** The group captured when the pattern is tried at position `p`: the greedy
      run of hex characters after `sub_`, if it is non-empty and followed by `_`
      (backtracking to a shorter run cannot help, since a hex character is never `_`). */
  function MatchAt(s: string, p: nat): Option<string>
    requires p <= |s|
  {
    if p + |Prefix| <= |s| && s[p..p + |Prefix|] == Prefix then
      var j := HexRunEnd(s, p + |Prefix|);
      if p + |Prefix| < j < |s| && s[j] == '_' then Some(s[p + |Prefix|..j]) else None
    else None
  }

  /** The leftmost match at or after position `p`. */
  function SearchFrom(s: string, p: nat): Option<string>
    requires p <= |s|
    decreases |s| - p
  {
    match MatchAt(s, p)
    case Some(u) => Some(u)
    case None => if p == |s| then None else SearchFrom(s, p + 1)
  }

  /** `order_id.match(/sub_([a-f0-9]+)_/)?.[1]`. */
  function Parse(s: string): Option<string> {
    SearchFrom(s, 0)
  }

  /** Trying the pattern at one position captures exactly the group it matches with. */
  lemma MatchAtCorrect(s: string, p: nat, u: string)
    requires p <= |s|
    ensures MatchAt(s, p) == Some(u) <==> MatchesAt(s, p, u)
  {
  }

  /** The search finds a group exactly when some position at or after `p`
      matches, and then it is the group of the leftmost such position. */
  lemma {:induction false} SearchFromCorrect(s: string, p: nat)
    requires p <= |s|
    ensures SearchFrom(s, p).None? <==> forall q, u :: p <= q <= |s| ==> !MatchesAt(s, q, u)
    ensures SearchFrom(s, p).Some? ==>
              exists q :: p <= q <= |s| && MatchesAt(s, q, SearchFrom(s, p).value)
                          && forall q', u' :: p <= q' < q ==> !MatchesAt(s, q', u')
    decreases |s| - p
  {
    forall u { MatchAtCorrect(s, p, u); }
    match MatchAt(s, p)
    case Some(u) =>
      assert MatchesAt(s, p, u);
    case None =>
      if p < |s| {
        SearchFromCorrect(s, p + 1);
        if SearchFrom(s, p + 1).Some? {
          var q :| p + 1 <= q <= |s| && MatchesAt(s, q, SearchFrom(s, p + 1).value)
                   && forall q', u' :: p + 1 <= q' < q ==> !MatchesAt(s, q', u');
          assert forall q', u' :: p <= q' < q ==> !MatchesAt(s, q', u');
        }
      }
  }

  /** `Parse` returns the group of the leftmost match, and nothing when the
      pattern occurs nowhere. */
  lemma ParseCorrect(s: string)
    ensures Parse(s).None? <==> forall q, u :: 0 <= q <= |s| ==> !MatchesAt(s, q, u)
    ensures Parse(s).Some? ==>
              exists q :: 0 <= q <= |s| && MatchesAt(s, q, Parse(s).value)
                          && forall q', u' :: 0 <= q' < q ==> !MatchesAt(s, q', u')
  {
    SearchFromCorrect(s, 0);
  }

  /** Round trip: the webhook recovers the user id the checkout encoded. */
  lemma ParseEncode(userId: string, timestamp: nat)
    ensures IsHexId(userId) ==> Parse(Encode(userId, timestamp)) == Some(userId)
  {
    if IsHexId(userId) {
      var s := Encode(userId, timestamp);
      assert s[..|Prefix|] == Prefix;
      assert s[|Prefix|..|Prefix| + |userId|] == userId;
      assert s[|Prefix| + |userId|] == '_';
      MatchAtCorrect(s, 0, userId);
    }
  }
}

=== FILE: seqs.dfy ===
/** Order and multiplicity facts about filtered sequences. */
module Seqs {
  /** `a` is `b` with some elements removed, order kept. */
  ghost predicate IsSubsequence<T>(a: seq<T>, b: seq<T>)
    decreases |b|
  {
    if |a| == 0 then true
    else if |b| == 0 then false
    else (a[0] == b[0] && IsSubsequence(a[1..], b[1..])) || IsSubsequence(a, b[1..])
  }

  /** `Array.prototype.filter`: the elements `keep` accepts, in order, each
      as often as it occurs. */
  function Filter<T(!new)>(keep: T -> bool, s: seq<T>): (r: seq<T>)
    ensures |r| <= |s|
    ensures IsSubsequence(r, s)
    ensures forall x :: multiset(r)[x] == if keep(x) then multiset(s)[x] else 0
    ensures forall x :: x in r <==> x in s && keep(x)
  {
    if |s| == 0 then []
    else
      var rest := Filter(keep, s[1..]);
      assert s == [s[0]] + s[1..];
      if keep(s[0]) then
        assert ([s[0]] + rest)[1..] == rest;
        [s[0]] + rest
      else rest
  }
}

=== FILE: signals.dfy ===
/** Documents of the `dailysignals` collection, read by the daily-picks and
    track-record routes. */
module Signals {
  import opened Wrappers
  import opened Accounts

  /** One entry of a document's `signals` array. `confidence` is a JSON
      number, so it is a real. */
  datatype DailySignal = DailySignal(
    symbol: Option<string>,
    timeframe: Option<string>,
    recommendation: Option<string>,
    confidence: Option<real>,
    entry: Option<string>,
    stopLoss: Option<string>,
    takeProfit: Option<string>,
    reasoning: Option<string>)

  /** A day's document. `signals` is `None` when the field is missing or is
      not an array. */
  datatype DailyDoc = DailyDoc(
    id: string,
    date: Option<Time>,
    createdAt: Option<Time>,
    published: Option<bool>,
    signals: Option<seq<DailySignal>>)

  /** The order of a descending sort on a date field: a missing date sorts
      below every present one. */
  predicate OlderThan(a: Option<Time>, b: Option<Time>) {
    b.Some? && (a.None? || a.value < b.value)
  }
}

=== FILE: stripe.dfy ===
/** `POST /api/webhooks/stripe`: the card provider's events. The handler
    requires the `stripe-signature` header, lets the provider library verify
    and parse the raw body, then handles three event types, each an
    unconditional overwrite of at most one user record. */
module StripeWebhook {
  import opened Wrappers
  import opened Js
  import opened Http
  import opened Accounts

  /** The fields of `event.data.object` the handler reads, for a checkout
      session (`metadata.userId`, `client_reference_id`, `customer`,
      `subscription`) or a subscription (`customer`, `status`). */
  datatype EventObject = EventObject(
    metadataUserId: Option<string>,
    clientReferenceId: Option<string>,
    customer: Option<string>,
    subscription: Option<string>,
    status: Option<string>)

  datatype Event = Event(eventType: string, data: EventObject)

  /** `stripe.webhooks.constructEvent(body, signature, secret)`: the parsed
      event when the signature verifies, `None` when it throws. */
  type ConstructEvent = (string, string) -> Option<Event>

  const CheckoutCompleted := "checkout.session.completed"
  const SubscriptionUpdated := "customer.subscription.updated"
  const SubscriptionDeleted := "customer.subscription.deleted"

  /** The user a completed checkout names: `metadata.userId || client_reference_id`. */
  function CheckoutUser(o: EventObject): Option<UserId> {
    FirstTruthy(o.metadataUserId, o.clientReferenceId)
  }

  /** The document an event acts on: by `_id` for a checkout, by
      `stripeCustomerId` for the subscription events. */
  function Target(s: Store, e: Event): (r: Option<nat>)
    ensures r.Some? ==> r.value < |s|
  {
    if e.eventType == CheckoutCompleted then
      (if CheckoutUser(e.data).Some? then ById(s, CheckoutUser(e.data).value) else None)
    else if e.eventType in {SubscriptionUpdated, SubscriptionDeleted} then ByCustomer(s, e.data.customer)
    else None
  }

  /** The `$set` each handled event type performs. */
  function Effect(a: Account, e: Event, now: Time): Account {
    if e.eventType == CheckoutCompleted then
      a.(tier := Some(PRO),
         stripeCustomerId := e.data.customer,
         stripeSubscriptionId := e.data.subscription,
         subscriptionStatus := Some("active"),
         creditsRemaining := Some(Unlimited),
         updatedAt := Some(now))
    else if e.eventType == SubscriptionUpdated then
      a.(subscriptionStatus := e.data.status, updatedAt := Some(now))
    else if e.eventType == SubscriptionDeleted then
      a.(tier := Some(FREE), creditsRemaining := Some(FreeAllotment),
         subscriptionStatus := Some("canceled"), updatedAt := Some(now))
    else a
  }

  /** The `switch (event.type)` on a verified event. */
  function ApplyEvent(s: Store, e: Event, now: Time): (t: Store)
    ensures SameIds(s, t)
    // each event touches at most one record
    ensures forall j, k :: 0 <= j < k < |s| ==> t[j] == s[j] || t[k] == s[k]
    // unhandled event types, and a checkout naming no user, change nothing
    ensures e.eventType !in {CheckoutCompleted, SubscriptionUpdated, SubscriptionDeleted} ==> t == s
    ensures e.eventType == CheckoutCompleted && CheckoutUser(e.data).None? ==> t == s
  {
    UpdateAt(s, Target(s, e), a => Effect(a, e, now))
  }

  /** The whole handler: `signature` is the `stripe-signature` header. */
  function Handle(s: Store, rawBody: string, signature: Option<string>,
                  construct: ConstructEvent, now: Time): (r: (Reply<Ack>, Store))
    ensures !Truthy(signature) ==> r == (Err(BadRequest, "Missing stripe-signature header"), s)
    ensures Truthy(signature) && construct(rawBody, signature.value).None? ==>
              r == (Err(BadRequest, "Webhook signature verification failed"), s)
    // a verified event is always acknowledged
    ensures Truthy(signature) && construct(rawBody, signature.value).Some? ==>
              r == (Ok(Received), ApplyEvent(s, construct(rawBody, signature.value).value, now))
    ensures r.1 != s ==> r.0 == Ok(Received)
  {
    if !Truthy(signature) then (Err(BadRequest, "Missing stripe-signature header"), s)
    else
      match construct(rawBody, signature.value)
      case None => (Err(BadRequest, "Webhook signature verification failed"), s)
      case Some(e) => (Ok(Received), ApplyEvent(s, e, now))
  }

  /** A completed checkout upgrades the user named by `metadata.userId`,
      falling back to `client_reference_id`, and links the Stripe ids. */
  lemma CheckoutUpgrades(s: Store, e: Event, now: Time)
    requires e.eventType == CheckoutCompleted
    requires CheckoutUser(e.data).Some? && ById(s, CheckoutUser(e.data).value).Some?
    ensures Truthy(e.data.metadataUserId) ==> CheckoutUser(e.data) == e.data.metadataUserId
    ensures !Truthy(e.data.metadataUserId) ==> CheckoutUser(e.data) == e.data.clientReferenceId
    ensures var i := ById(s, CheckoutUser(e.data).value).value;
      var t := ApplyEvent(s, e, now);
      && OnlyChanged(s, t, i)
      && t[i].account.tier == Some(PRO)
      && t[i].account.creditsRemaining == Some(Unlimited)
      && t[i].account.subscriptionStatus == Some("active")
      && t[i].account.stripeCustomerId == e.data.customer
      && t[i].account.stripeSubscriptionId == e.data.subscription
      && t[i].account.updatedAt == Some(now)
      // every field outside the `$set` is kept
      && t[i].account.(tier := s[i].account.tier,
                       stripeCustomerId := s[i].account.stripeCustomerId,
                       stripeSubscriptionId := s[i].account.stripeSubscriptionId,
                       subscriptionStatus := s[i].account.subscriptionStatus,
                       creditsRemaining := s[i].account.creditsRemaining,
                       updatedAt := s[i].account.updatedAt) == s[i].account
  {
  }

  /** A subscription update mirrors the provider's status onto the first
      record linked to the customer, and leaves its tier and credits alone. */
  lemma SubscriptionUpdateMirrorsStatus(s: Store, e: Event, now: Time)
    requires e.eventType == SubscriptionUpdated
    ensures ByCustomer(s, e.data.customer).None? ==> ApplyEvent(s, e, now) == s
    ensures ByCustomer(s, e.data.customer).Some? ==>
      var i := ByCustomer(s, e.data.customer).value;
      var t := ApplyEvent(s, e, now);
      && OnlyChanged(s, t, i)
      && t[i].account.stripeCustomerId == e.data.customer
      && t[i].account.subscriptionStatus == e.data.status
      && t[i].account.tier == s[i].account.tier
      && t[i].account.creditsRemaining == s[i].account.creditsRemaining
      && t[i].account.updatedAt == Some(now)
      // only the status and the timestamp change
      && t[i].account.(subscriptionStatus := s[i].account.subscriptionStatus,
                       updatedAt := s[i].account.updatedAt) == s[i].account
  {
  }

  /** A subscription deletion downgrades the first record linked to the
      customer to FREE with the free allotment. */
  lemma SubscriptionDeleteDowngrades(s: Store, e: Event, now: Time)
    requires e.eventType == SubscriptionDeleted
    ensures ByCustomer(s, e.data.customer).None? ==> ApplyEvent(s, e, now) == s
    ensures ByCustomer(s, e.data.customer).Some? ==>
      var i := ByCustomer(s, e.data.customer).value;
      var t := ApplyEvent(s, e, now);
      && OnlyChanged(s, t, i)
      && t[i].account.tier == Some(FREE)
      && t[i].account.creditsRemaining == Some(FreeAllotment)
      && t[i].account.subscriptionStatus == Some("canceled")
      && t[i].account.stripeSubscriptionId == s[i].account.stripeSubscriptionId
      && t[i].account.updatedAt == Some(now)
      // every field outside the `$set` is kept
      && t[i].account.(tier := s[i].account.tier,
                       creditsRemaining := s[i].account.creditsRemaining,
                       subscriptionStatus := s[i].account.subscriptionStatus,
                       updatedAt := s[i].account.updatedAt) == s[i].account
  {
  }

  /** Redelivery: applying an event again at a later time gives the same
      store as applying it once at that time. */
  lemma ApplyEventIdempotent(s: Store, e: Event, t1: Time, t2: Time)
    ensures ApplyEvent(ApplyEvent(s, e, t1), e, t2) == ApplyEvent(s, e, t2)
  {
    var s1 := ApplyEvent(s, e, t1);
    if e.eventType == CheckoutCompleted && CheckoutUser(e.data).Some? {
      ByIdStable(s, s1, CheckoutUser(e.data).value);
    } else if e.eventType in {SubscriptionUpdated, SubscriptionDeleted} {
      var i := ByCustomer(s, e.data.customer);
      if i.Some? {
        ByCustomerStable(s, s1, e.data.customer, i.value);
      }
    }
  }
}

=== FILE: track_record.dfy ===
/** `GET /api/track-record`: a page of completed trade signals plus summary
    statistics counted over the last 100 published daily-signal documents.
    The database's sorting is not modelled: each collection is given in the
    order its query sorts by (newest first). */
module TrackRecord {
  import opened Wrappers
  import opened Js
  import opened Http
  import opened Signals
  import opened Seqs

  /** The fields of a `tradesignals` document the query filters on. */
  datatype TradeSignal = TradeSignal(
    id: string, status: Option<string>, symbol: Option<string>, tradeStatus: Option<string>)

  /** The query filter: `status` is always "completed". */
  datatype Query = Query(status: string, symbol: Option<string>, tradeStatus: Option<string>)

  /** The filter built from the `symbol` and `status` query parameters. */
  function BuildQuery(symbol: Option<string>, status: Option<string>): (q: Query)
    ensures q.status == "completed"
    ensures q.symbol.Some? <==> Truthy(symbol)
    ensures q.symbol.Some? ==> q.symbol.value == Upper(symbol.value) && |q.symbol.value| == |symbol.value|
    ensures q.tradeStatus.Some? <==> Truthy(status)
    ensures q.tradeStatus.Some? ==> q.tradeStatus == status
  {
    Query("completed",
          if Truthy(symbol) then Some(Upper(symbol.value)) else None,
          if Truthy(status) then status else None)
  }

  predicate Matches(q: Query, t: TradeSignal) {
    && t.status == Some(q.status)
    && (q.symbol.None? || t.symbol == q.symbol)
    && (q.tradeStatus.None? || t.tradeStatus == q.tradeStatus)
  }

  /** `.find(query)`, in collection order. */
  function Select(q: Query, docs: seq<TradeSignal>): (r: seq<TradeSignal>)
    ensures |r| <= |docs|
    ensures forall t :: t in r <==> t in docs && Matches(q, t)
    // the matches in collection order, each as often as it is stored
    ensures IsSubsequence(r, docs)
    ensures forall t :: multiset(r)[t] == if Matches(q, t) then multiset(docs)[t] else 0
  {
    Filter(t => Matches(q, t), docs)
  }

  function Magnitude(n: int): nat {
    if n < 0 then -n else n
  }

  /** `.skip(skip).limit(limit)`; a limit of 0 means no limit and a negative
      one is taken by its magnitude. */
  function Page(sel: seq<TradeSignal>, skip: nat, limit: int): (page: seq<TradeSignal>)
    ensures forall t :: t in page ==> t in sel
    ensures limit != 0 ==> |page| <= Magnitude(limit)
    // documents remain past the page exactly when a limit cut it short
    ensures skip + |page| < |sel| <==> limit != 0 && skip + Magnitude(limit) < |sel|
    // the page is the run of the selection that starts at `skip`: all of it, or its
    // first |limit| documents when a limit cuts it short
    ensures skip > |sel| ==> page == []
    ensures skip <= |sel| ==> page <= sel[skip..]
    ensures skip <= |sel| && (limit == 0 || Magnitude(limit) >= |sel| - skip) ==> page == sel[skip..]
    ensures skip <= |sel| && limit != 0 && Magnitude(limit) < |sel| - skip ==> |page| == Magnitude(limit)
  {
    var rest := if skip <= |sel| then sel[skip..] else [];
    if limit == 0 || Magnitude(limit) >= |rest| then rest else rest[..Magnitude(limit)]
  }

  /** `find({ published: true }).sort({ date: -1 }).limit(100)`. */
  function RecentPublished(docs: seq<DailyDoc>): (r: seq<DailyDoc>)
    ensures |r| <= 100
    ensures forall d :: d in r ==> d in docs && d.published == Some(true)
    // the first 100 published documents in the order given, or all of them when fewer
    ensures r <= PublishedOnly(docs)
    ensures |r| == if |PublishedOnly(docs)| <= 100 then |PublishedOnly(docs)| else 100
    ensures |PublishedOnly(docs)| <= 100 ==>
              forall d :: d in docs && d.published == Some(true) ==> d in r
  {
    var published := PublishedOnly(docs);
    if |published| <= 100 then published else published[..100]
  }

  /** The `{ published: true }` filter. Written out rather than through
      `Seqs.Filter`: a call of `Filter` carries its multiplicity quantifier
      into every proof that mentions the statistics, which makes those proofs
      far more expensive. The multiplicity fact is `PublishedOnlyCounts`. */
  function PublishedOnly(docs: seq<DailyDoc>): (r: seq<DailyDoc>)
    ensures forall d :: d in r <==> d in docs && d.published == Some(true)
    // the published documents in the order given
    ensures IsSubsequence(r, docs)
  {
    if |docs| == 0 then []
    else
      var rest := PublishedOnly(docs[1..]);
      if docs[0].published == Some(true) then
        assert ([docs[0]] + rest)[1..] == rest;
        [docs[0]] + rest
      else rest
  }

  /** Each published document is kept as often as it is stored, so the
      100-document limit cuts the same documents the query would. */
  lemma {:induction false} PublishedOnlyCounts(docs: seq<DailyDoc>)
    ensures forall d :: multiset(PublishedOnly(docs))[d] ==
                        if d.published == Some(true) then multiset(docs)[d] else 0
    decreases |docs|
  {
    if |docs| > 0 {
      PublishedOnlyCounts(docs[1..]);
      assert docs == [docs[0]] + docs[1..];
      assert multiset(docs) == multiset{docs[0]} + multiset(docs[1..]);
    }
  }

  /** A day's signals; a missing or non-array field contributes none. */
  function SignalsOf(d: DailyDoc): seq<DailySignal> {
    if d.signals.Some? then d.signals.value else []
  }

  /** `signal.confidence >= 70`; a missing confidence compares false. */
  predicate IsWin(sig: DailySignal) {
    sig.confidence.Some? && sig.confidence.value >= 70.0
  }

  /** Reference count: the number of signals over all days. */
  function CountSignals(days: seq<DailyDoc>): nat {
    if |days| == 0 then 0 else CountSignals(days[..|days| - 1]) + |SignalsOf(days[|days| - 1])|
  }

  function WinsIn(sigs: seq<DailySignal>): (n: nat)
    ensures n <= |sigs|
  {
    if |sigs| == 0 then 0 else WinsIn(sigs[..|sigs| - 1]) + (if IsWin(sigs[|sigs| - 1]) then 1 else 0)
  }

  /** Reference count: the number of winning signals over all days, never
      more than the number of signals. */
  function CountWins(days: seq<DailyDoc>): (n: nat)
    ensures n <= CountSignals(days)
  {
    if |days| == 0 then 0 else CountWins(days[..|days| - 1]) + WinsIn(SignalsOf(days[|days| - 1]))
  }

  /** The two nested `forEach` loops: every signal of every day is counted
      once, as a win when its confidence is at least 70 and as a loss otherwise. */
  method CountOutcomes(days: seq<DailyDoc>) returns (total: nat, wins: nat, losses: nat)
    ensures total == CountSignals(days)
    ensures wins == CountWins(days)
    ensures total == wins + losses
  {
    total, wins, losses := 0, 0, 0;
    var i := 0;
    while i < |days|
      invariant 0 <= i <= |days|
      invariant total == CountSignals(days[..i])
      invariant wins == CountWins(days[..i])
      invariant total == wins + losses
    {
      var sigs := SignalsOf(days[i]);
      var j := 0;
      while j < |sigs|
        invariant 0 <= j <= |sigs|
        invariant total == CountSignals(days[..i]) + j
        invariant wins == CountWins(days[..i]) + WinsIn(sigs[..j])
        invariant total == wins + losses
      {
        assert sigs[..j + 1][..j] == sigs[..j];
        total := total + 1;
        if IsWin(sigs[j]) {
          wins := wins + 1;
        } else {
          losses := losses + 1;
        }
        j := j + 1;
      }
      assert sigs[..j] == sigs;
      assert days[..i + 1][..i] == days[..i];
      i := i + 1;
    }
    assert days[..i] == days;
  }

  /** `(wins / totalSignals) * 100`, or 0 when there are no signals. */
  function WinRate(wins: nat, total: nat): (rate: real)
    requires wins <= total
    ensures total == 0 ==> rate == 0.0
    ensures 0.0 <= rate <= 100.0
    ensures total > 0 && wins == total ==> rate == 100.0
  {
    if total > 0 then (wins as real / total as real) * 100.0 else 0.0
  }

  datatype Stats = Stats(
    totalSignals: nat, winRate: real, averageRiskReward: string,
    totalProfit: string, bestWin: string, worstLoss: string)

  datatype Pagination = Pagination(total: nat, limit: int, skip: int, hasMore: bool)

  datatype TrackRecordReply = TrackRecordReply(stats: Stats, trackRecord: seq<TradeSignal>, pagination: Pagination)

  /** The handler. `limitParam` and `skipParam` are the parsed numeric query
      parameters (`None` when absent or empty), `symbolParam` and `statusParam`
      the text ones; `trades` and `days` are the two collections. */
  method Get(limitParam: Option<int>, skipParam: Option<int>,
             symbolParam: Option<string>, statusParam: Option<string>,
             trades: seq<TradeSignal>, days: seq<DailyDoc>) returns (r: Reply<TrackRecordReply>)
    ensures r.Err? <==> skipParam.GetOr(0) < 0
    // the pagination echoes the parameters and counts every selected document
    ensures r.Ok? ==>
              && r.body.pagination.total == |Select(BuildQuery(symbolParam, statusParam), trades)|
              && r.body.pagination.limit == limitParam.GetOr(50)
              && r.body.pagination.skip == skipParam.GetOr(0)
    // the page is the `skip`..`skip + limit` run of the selection
    ensures r.Ok? ==>
              r.body.trackRecord == Page(Select(BuildQuery(symbolParam, statusParam), trades),
                                         skipParam.GetOr(0), limitParam.GetOr(50))
    // the page holds only documents the query selects, at most `limit` of them, and
    // `hasMore` holds exactly when documents lie beyond the page
    ensures r.Ok? ==>
              && (forall t :: t in r.body.trackRecord ==>
                    t in trades && Matches(BuildQuery(symbolParam, statusParam), t))
              && (r.body.pagination.limit != 0 ==> |r.body.trackRecord| <= Magnitude(r.body.pagination.limit))
              && (r.body.pagination.hasMore <==>
                    r.body.pagination.skip + |r.body.trackRecord| < r.body.pagination.total)
              && (r.body.pagination.hasMore <==>
                    r.body.pagination.limit != 0
                    && r.body.pagination.skip + Magnitude(r.body.pagination.limit) < r.body.pagination.total)
    // the statistics count every recent daily signal once
    ensures r.Ok? ==>
              && r.body.stats.winRate ==
                   WinRate(CountWins(RecentPublished(days)), CountSignals(RecentPublished(days)))
              && r.body.stats.totalSignals ==
                   (if CountSignals(RecentPublished(days)) != 0 then CountSignals(RecentPublished(days))
                    else r.body.pagination.total)
              && r.body.stats.averageRiskReward == "2.5"
  {
    var limit := limitParam.GetOr(50);
    var skip := skipParam.GetOr(0);
    if skip < 0 {
      return Err(InternalError, "Failed to fetch track record");
    }
    var q := BuildQuery(symbolParam, statusParam);
    var selected := Select(q, trades);
    var page := Page(selected, skip, limit);
    var totalCount := |selected|;

    var recent := RecentPublished(days);
    var total, wins, losses := CountOutcomes(recent);
    var rate := WinRate(wins, total);

    // `riskRewardCount` is never incremented, so the average is always the fallback
    var stats := Stats(if total != 0 then total else totalCount, rate, "2.5", "12.4", "+24.5%", "-8.2%");
    r := Ok(TrackRecordReply(stats, page, Pagination(totalCount, limit, skip, skip + |page| < totalCount)));
  }
}

=== FILE: usage.dfy ===
/** The credit gate: `GET /api/usage/check` reports whether the signed-in user
    may run an analysis, `POST /api/usage/consume` spends one credit of a FREE
    user. The decrement reads the balance and then writes it back decremented,
    as two sequential steps; requests are applied one after another. */
module Usage {
  import opened Wrappers
  import opened Js
  import opened Http
  import opened Accounts

  /** Body of `GET /api/usage/check`. */
  datatype UsageInfo = UsageInfo(tier: string, creditsRemaining: int, canAnalyze: bool)

  /** Body of a successful `POST /api/usage/consume` (`success: true`). */
  datatype Consumed = Consumed(tier: string, creditsRemaining: int)

  const NoCreditsMessage := "No credits remaining. Upgrade to PRO for unlimited analyses."

  /** `GET /api/usage/check` for the session's user id (`None`: no session).
      The handler only reads the store. */
  function Check(s: Store, session: Option<UserId>): (r: Reply<UsageInfo>)
    ensures session.None? ==> r == Err(Unauthorized, "Unauthorized")
    ensures session.Some? && ById(s, session.value).None? ==> r == Err(NotFound, "User not found")
    ensures r.Ok? <==> session.Some? && ById(s, session.value).Some?
    // the verdict is consistent with the tier and balance reported beside it
    ensures r.Ok? ==> (r.body.canAnalyze <==> r.body.tier == PRO || r.body.creditsRemaining > 0)
    // an absent or empty tier reads as FREE, an absent or zero balance as 0
    ensures r.Ok? && !Truthy(s[ById(s, session.value).value].account.tier) ==> r.body.tier == FREE
    ensures r.Ok? && (s[ById(s, session.value).value].account.creditsRemaining.None?
                      || s[ById(s, session.value).value].account.creditsRemaining == Some(0)) ==>
              r.body.creditsRemaining == 0
    ensures r.Ok? && IsPro(s[ById(s, session.value).value].account) ==> r.body.tier == PRO && r.body.canAnalyze
    // a stored tier and a stored non-zero balance are reported as stored
    ensures r.Ok? && Truthy(s[ById(s, session.value).value].account.tier) ==>
              r.body.tier == s[ById(s, session.value).value].account.tier.value
    ensures r.Ok? && s[ById(s, session.value).value].account.creditsRemaining.Some?
                  && s[ById(s, session.value).value].account.creditsRemaining.value != 0 ==>
              r.body.creditsRemaining == s[ById(s, session.value).value].account.creditsRemaining.value
    // the verdict in terms of the stored record
    ensures r.Ok? ==>
              var a := s[ById(s, session.value).value].account;
              (r.body.canAnalyze <==> IsPro(a) || EffectiveCredits(a) > 0)
  {
    if session.None? then Err(Unauthorized, "Unauthorized")
    else
      match ById(s, session.value)
      case None => Err(NotFound, "User not found")
      case Some(i) =>
        var a := s[i].account;
        Ok(UsageInfo(EffectiveTier(a), EffectiveCredits(a), IsPro(a) || EffectiveCredits(a) > 0))
  }

  /** `POST /api/usage/consume` for the session's user id, at time `now`.
      Returns the reply and the store after the handler's writes. */
  function Consume(s: Store, session: Option<UserId>, now: Time): (r: (Reply<Consumed>, Store))
    ensures session.None? ==> r.0 == Err(Unauthorized, "Unauthorized") && r.1 == s
    ensures session.Some? && ById(s, session.value).None? ==> r.0 == Err(NotFound, "User not found") && r.1 == s
    // a PRO user always succeeds with the "unlimited" marker and nothing is written
    ensures session.Some? && ById(s, session.value).Some? && IsPro(s[ById(s, session.value).value].account) ==>
              r.0 == Ok(Consumed(PRO, Unlimited)) && r.1 == s
    // any other user with no usable balance is refused and nothing is written
    ensures session.Some? && ById(s, session.value).Some? ==>
              var a := s[ById(s, session.value).value].account;
              !IsPro(a) && EffectiveCredits(a) <= 0 ==> r.0 == Err(Forbidden, NoCreditsMessage) && r.1 == s
    // otherwise exactly one credit is spent from that user's record and nothing else changes
    ensures session.Some? && ById(s, session.value).Some? ==>
              var i := ById(s, session.value).value;
              var a := s[i].account;
              !IsPro(a) && EffectiveCredits(a) > 0 ==>
                && r.0 == Ok(Consumed(FREE, EffectiveCredits(a) - 1))
                && OnlyChanged(s, r.1, i)
                && EffectiveCredits(r.1[i].account) == EffectiveCredits(a) - 1
                && r.1[i].account.tier == a.tier
                && r.1[i].account.(creditsRemaining := a.creditsRemaining, updatedAt := a.updatedAt) == a
                && r.1[i].account.updatedAt == Some(now)
    // the store changes only together with a successful answer
    ensures r.1 != s ==> r.0.Ok?
    ensures SameIds(s, r.1)
  {
    if session.None? then (Err(Unauthorized, "Unauthorized"), s)
    else
      match ById(s, session.value)
      case None => (Err(NotFound, "User not found"), s)
      case Some(i) =>
        var a := s[i].account;
        if IsPro(a) then (Ok(Consumed(PRO, Unlimited)), s)
        else
          var credits := EffectiveCredits(a);
          if credits <= 0 then (Err(Forbidden, NoCreditsMessage), s)
          else
            // `$inc: { creditsRemaining: -1 }` on a present, positive field
            var a' := a.(creditsRemaining := Some(a.creditsRemaining.value - 1), updatedAt := Some(now));
            (Ok(Consumed(FREE, credits - 1)), SetAccount(s, i, a'))
  }

  /** `check` says `canAnalyze` exactly when `consume` on the same store
      would succeed, and both refuse a request the same way. */
  lemma CheckAgreesWithConsume(s: Store, session: Option<UserId>, now: Time)
    ensures Check(s, session).Ok? <==> Consume(s, session, now).0 != Err(Unauthorized, "Unauthorized")
                                        && Consume(s, session, now).0 != Err(NotFound, "User not found")
    ensures Check(s, session).Err? ==>
              && Consume(s, session, now).0.Err?
              && Consume(s, session, now).0.status == Check(s, session).status
              && Consume(s, session, now).0.message == Check(s, session).message
    ensures Check(s, session).Ok? ==> (Check(s, session).body.canAnalyze <==> Consume(s, session, now).0.Ok?)
  {
  }

  /** The replies and final store of `k` consecutive `consume` requests by `u`. */
  function ConsumeTimes(s: Store, u: UserId, now: Time, k: nat): (seq<Reply<Consumed>>, Store)
    decreases k
  {
    if k == 0 then ([], s)
    else
      var (replies, s') := ConsumeTimes(s, u, now, k - 1);
      var (reply, s'') := Consume(s', Some(u), now);
      (replies + [reply], s'')
  }

  /** After `k` of `n` credits are spent, each request answered success with
      the balance counting down, and the record holds `n - k`. */
  lemma {:induction false} ConsumeTimesCountsDown(s: Store, u: UserId, now: Time, n: nat, k: nat)
    requires ById(s, u).Some?
    requires !IsPro(s[ById(s, u).value].account)
    requires s[ById(s, u).value].account.creditsRemaining == Some(n)
    requires k <= n
    ensures var (replies, s') := ConsumeTimes(s, u, now, k);
      && |replies| == k
      && SameIds(s, s')
      && ById(s', u) == ById(s, u)
      && !IsPro(s'[ById(s, u).value].account)
      && s'[ById(s, u).value].account.creditsRemaining == Some(n - k)
      && forall j :: 0 <= j < k ==> replies[j] == Ok(Consumed(FREE, n - 1 - j))
    decreases k
  {
    if k > 0 {
      ConsumeTimesCountsDown(s, u, now, n, k - 1);
      var (replies, s') := ConsumeTimes(s, u, now, k - 1);
      ByIdStable(s, s', u);
      var i := ById(s, u).value;
      assert EffectiveCredits(s'[i].account) == n - (k - 1);
      var (reply, s'') := Consume(s', Some(u), now);
      assert reply == Ok(Consumed(FREE, n - k));
      ByIdStable(s, s'', u);
      forall j | 0 <= j < k
        ensures (replies + [reply])[j] == Ok(Consumed(FREE, n - 1 - j))
      {
        if j < k - 1 {
          assert (replies + [reply])[j] == replies[j];
        }
      }
    }
  }

  /** A FREE user holding `n > 0` credits gets `n` successes in a row, after
      which the balance is 0 and the next request is refused without a write. */
  lemma CreditsRunOut(s: Store, u: UserId, now: Time, n: nat)
    requires ById(s, u).Some?
    requires !IsPro(s[ById(s, u).value].account)
    requires s[ById(s, u).value].account.creditsRemaining == Some(n)
    requires n > 0
    ensures var (replies, s') := ConsumeTimes(s, u, now, n);
      && |replies| == n
      && (forall j :: 0 <= j < n ==> replies[j].Ok?)
      && SameIds(s, s')
      && s'[ById(s, u).value].account.creditsRemaining == Some(0)
      && Consume(s', Some(u), now) == (Err(Forbidden, NoCreditsMessage), s')
  {
    ConsumeTimesCountsDown(s, u, now, n, n);
  }
}

=== FILE: wrappers.dfy ===
/** Optional values and success/failure results, the two shapes every handler
    in this model uses for "a field may be absent" and "this call may fail". */
module Wrappers {

  /** A value that may be absent: JavaScript's `undefined` or `null`. */
  datatype Option<+T> = None | Some(value: T) {

    /** The wrapped value, or `default` when there is none. */
    function GetOr(default: T): T {
      match this
      case Some(v) => v
      case None => default
    }
  }

  /** The outcome of an operation that either produces a value or throws. */
  datatype Result<+T, +E> = Success(value: T) | Failure(error: E)
}
